=== FILE: README.md ===
# mediaimpact bidder adapter, modelled in Dafny

This project models the request and response logic of the Prebid.js
`mediaimpact` bidder adapter (`modules/mediaimpactBidAdapter.js`) and proves
properties of it:

- **Validation** (`isBidRequestValid`, `_validateVideo`): a bid request is
  accepted when its unit id or partner id reads, through JavaScript's
  `parseInt`, as a non-zero integer, and its video configuration, if any, has an
  array `playerSize` and a truthy `context`.
- **Request building** (`buildRequests`, `joinSizesToString`): one outbound
  entry per request, in order, with the partner-id-over-unit-id rule; the
  beacon query parameters `tag`, `partner`, `sizes` and `referer`; and the
  write of each request's sizes into its (possibly shared) video configuration
  object, which the serialised body then shows.
- **Response interpretation** (`interpretResponse`, `adResponse`): the echoed
  entries that have a truthy ad in the response body, in order, each turned
  into a normalised bid with a fixed ttl, video-only fields and a default
  `meta`.
- **User syncs** (`getUserSyncs` and its local `appendGdprParams`): per ad, the
  iframe pass before the image pass, only for enabled kinds, each link with the
  GDPR consent query appended after '?' or '&'.

Modules:

| file | module | contents |
|---|---|---|
| wrappers.dfy | `Wrappers` | `Option` |
| jsvalues.dfy | `JsValues` | JSON values and JavaScript truthiness |
| jstext.dfy | `JsText` | `parseInt`, `String(n)` for integers, `Array.prototype.join` and a splitter |
| types.dfy | `AdapterTypes` | the entities and constants of the adapter |
| validation.dfy | `RequestValidation` | `isBidRequestValid`, `_validateVideo` |
| builder.dfy | `RequestBuilder` | `buildRequests`, `joinSizesToString` |
| interpret.dfy | `ResponseInterpreter` | `interpretResponse`, `adResponse` |
| syncs.dfy | `UserSyncs` | `getUserSyncs`, `appendGdprParams` |

The imperative parts keep their form. `buildRequests` is a method whose loop
calls the `forEach` callback (`VisitBidRequest`) once per request. The video
configuration is a class (`VideoConfig`) whose `fields` map the callback
updates in place. When several requests share one video object, the last of
them decides its `sizes` (`LastWriterWins`). `joinSizesToString` and
`getUserSyncs` are loops that push onto a list. Each of these methods is proved
equal to a specification function, and the properties are proved about those
functions. Validation and response interpretation are pure and are modelled as
functions.

Two consequences of the code are worth spelling out:

- The sizes of one request are joined with '|' (line 117), and the strings of
  the requests with ',' (lines 84 and 95). So two requests with sizes
  `[[300,250]]` and `[[728,90],[300,600]]` give `sizes` =
  "300x250,728x90|300x600". `BeaconSizesSeparateRequests` proves that two or
  more requests always put a ',' into `sizes`.
- The response filter (line 132) and the `meta` test (line 156) are
  truthiness tests. A falsy ad (null, 0, "", false) is dropped like a missing
  one, and a falsy `meta` keeps the default `{}`.

## Model

| member | source | states |
|---|---|---|
| RequestValidation.ParsedId | modules/mediaimpactBidAdapter.js:16 | an id counts exactly when `parseInt` of it is a number other than NaN and 0, and then it is that number |
| RequestValidation.IsBidRequestValid | modules/mediaimpactBidAdapter.js:15-17 | one id parses to a non-zero integer and the video check passes; its properties are stated by `ValidWithLeadingInteger`, `NoDigitIdsRejected`, `ZeroUnitIdRejected` and `VideoRule` |
| RequestValidation.ValidateVideo | modules/mediaimpactBidAdapter.js:19-35 | `_validateVideo`; `VideoRule` states what it adds to acceptance |
| RequestValidation.ValidWithLeadingInteger | modules/mediaimpactBidAdapter.js:15-35 | a request whose unit id or partner id starts with the numeral of a non-zero integer, negative ones included, followed by a non-digit or nothing, is valid ("12abc" counts as 12), provided a video configuration, if any, has an array `playerSize` and a truthy `context` |
| RequestValidation.NoDigitIdsRejected | modules/mediaimpactBidAdapter.js:15-17 | absent ids, and ids without a decimal digit, never make a request valid |
| RequestValidation.ZeroUnitIdRejected | modules/mediaimpactBidAdapter.js:15-17 | a unit id "0" without a partner id is rejected: the test is truthiness |
| RequestValidation.VideoRule | modules/mediaimpactBidAdapter.js:15-35 | without a video configuration the ids alone decide acceptance; with one, a request whose `playerSize` is not an array, or whose `context` is null, false, 0, "" or missing, is rejected whatever its ids, and otherwise the ids decide |
| JsText.ParseInt | modules/mediaimpactBidAdapter.js:16 | ECMAScript `parseInt` with no radix (leading whitespace, a sign, a "0x" prefix, the longest digit run; NaN as no value); `ParseIntLeading`, `ParseIntRoundTrip` and `NoDigitNoNumber` state its properties |
| JsText.ParseIntLeading | modules/mediaimpactBidAdapter.js:16 | `parseInt` reads back the numeral of any integer, whatever non-digit text follows it, except that after the numeral 0 the text must not start with 'x' or 'X' ("0x1" is read as hexadecimal) |
| JsText.ParseIntRoundTrip | modules/mediaimpactBidAdapter.js:72 | `parseInt(String(n)) == n` for every integer n |
| JsText.NoDigitNoNumber | modules/mediaimpactBidAdapter.js:16 | a string without a decimal digit parses to NaN |
| JsText.IntToString | modules/mediaimpactBidAdapter.js:114 | the decimal string of an integer that `join` writes for each number of a size; `ParseIntRoundTrip`, `ParseIntLeading` and `NatToStringDigits` state its properties |
| JsText.NatToStringDigits | modules/mediaimpactBidAdapter.js:114 | the numeral of a natural number is all digits, has no leading zero, and denotes that number |
| JsValues.Truthy | modules/mediaimpactBidAdapter.js:16 | JavaScript truthiness, the test of lines 16, 30, 63, 132 and 156: null, false, 0 and "" are falsy, every array and object is truthy; `ParsedId`, `ZeroUnitIdRejected`, `VideoRule`, `AdFor` and `AdResponseShape` state what the tests decide |
| JsText.Join | modules/mediaimpactBidAdapter.js:114-117 | `Array.prototype.join`, also used at lines 89, 94 and 95; `JoinHoldsSeparator`, `JoinAvoids`, `SplitJoin` and `JoinSplit` state its properties |
| JsText.JoinHoldsSeparator | modules/mediaimpactBidAdapter.js:117 | the separator occurs in a join exactly when there are two or more parts or a part holds it |
| JsText.JoinAvoids | modules/mediaimpactBidAdapter.js:117 | a character that is neither the separator nor in any part is not in the join |
| JsText.SplitJoin | modules/mediaimpactBidAdapter.js:94-95 | splitting a join of one or more separator-free parts gives the parts back |
| JsText.JoinSplit | modules/mediaimpactBidAdapter.js:94-95 | joining the pieces of a split gives the string back |
| RequestBuilder.SizesString | modules/mediaimpactBidAdapter.js:111-118 | the value `joinSizesToString` returns; `JoinSizesToString` is proved to compute it, and `SizesRoundTrip` and `SizesSeparators` state its properties |
| RequestBuilder.JoinSizesToString | modules/mediaimpactBidAdapter.js:111-118 | the loop's result is the sizes' 'x'-joined numbers joined with '\|', in order |
| RequestBuilder.SizeString | modules/mediaimpactBidAdapter.js:114 | `size.join('x')`; `SizeStringRoundTrip` states its properties |
| RequestBuilder.SizeStringRoundTrip | modules/mediaimpactBidAdapter.js:114 | a non-empty size's string is non-empty, has no '\|' or ',', and reads back as the size |
| RequestBuilder.SizesRoundTrip | modules/mediaimpactBidAdapter.js:111-118 | when no size is empty, the sizes string holds no ',' and reads back as the same list of sizes |
| RequestBuilder.SizeStringListRoundTrip | modules/mediaimpactBidAdapter.js:113-115 | each collected size string is a non-empty piece without '\|' or ',' that reads back as its size |
| RequestBuilder.SizesSeparators | modules/mediaimpactBidAdapter.js:111-118 | no sizes give "", and a single size gives its own string, with no '\|' |
| RequestBuilder.Referer | modules/mediaimpactBidAdapter.js:39 | the page address when it is non-empty, else the location |
| RequestBuilder.EffectiveSizes | modules/mediaimpactBidAdapter.js:51-54 | `params.sizes` when it is defined, else the request's sizes |
| RequestBuilder.Record | modules/mediaimpactBidAdapter.js:56-80 | the entry copies ad unit code, bid id, referer, effective sizes and video; a truthy partner id gives unit id 0 and that partner id, else the truthy unit id and no partner id |
| RequestBuilder.ValidRecordHasOneId | modules/mediaimpactBidAdapter.js:71-80 | an accepted request's entry identifies itself by exactly one non-zero id |
| RequestBuilder.Records | modules/mediaimpactBidAdapter.js:82 | the `bidRequests` array after the first k pushes; `RecordsAt`, `VisitNext` and `BuildRequests` state it |
| RequestBuilder.RecordsAt | modules/mediaimpactBidAdapter.js:49-82 | entry j of the batch is the entry of request j |
| RequestBuilder.Serialize | modules/mediaimpactBidAdapter.js:107 | the serialised entry keeps every field and shows the video object's keys as they are at that moment |
| RequestBuilder.SizesJson | modules/mediaimpactBidAdapter.js:67 | the value `video.sizes = sizes` stores: the effective sizes as an array of arrays of numbers; `LastWriterWins` and `VisitBidRequest` state where it goes |
| RequestBuilder.FieldsAfter | modules/mediaimpactBidAdapter.js:63-69 | a video object's keys after the writes of the first k requests; `OnlySizesWritten`, `LastWriterWins` and `UntouchedVideo` state its properties, and `VisitAll` and `BuildRequests` are proved to leave every video object in that state |
| RequestBuilder.OnlySizesWritten | modules/mediaimpactBidAdapter.js:63-69 | processing the batch changes no key of a video object other than "sizes" |
| RequestBuilder.LastWriterWins | modules/mediaimpactBidAdapter.js:63-69 | a video object shared by several requests ends with the effective sizes of the last of them |
| RequestBuilder.UntouchedVideo | modules/mediaimpactBidAdapter.js:63-69 | a video object no request refers to is unchanged |
| RequestBuilder.CollectedIds | modules/mediaimpactBidAdapter.js:71-80 | the `tag` or `partner` array after the first k requests (pushes at lines 73 and 79); `CollectedIdsParse`, `CollectedIdsEmpty`, `CollectedIdsComplete` and `CollectedIdsAvoid` state its properties, and `VisitNext` is proved to extend it |
| RequestBuilder.CollectedIdsParse | modules/mediaimpactBidAdapter.js:71-80 | every id pushed onto `tag` or `partner` parses to a non-zero integer |
| RequestBuilder.CollectedIdsEmpty | modules/mediaimpactBidAdapter.js:76-92 | a list is empty exactly when no request has a truthy id of that kind |
| RequestBuilder.CollectedIdsComplete | modules/mediaimpactBidAdapter.js:71-80 | every request with a truthy id of a kind contributes its raw id to that list |
| RequestBuilder.CollectedIdsAvoid | modules/mediaimpactBidAdapter.js:73-79 | a character no raw id holds is in no collected id |
| RequestBuilder.UnitIdTaggedWhenOverridden | modules/mediaimpactBidAdapter.js:71-80 | when both ids are truthy, the entry's unit id is 0, yet the raw unit id is in `tag` and the raw partner id in `partner` |
| RequestBuilder.SizeStrings | modules/mediaimpactBidAdapter.js:84 | the `beaconParams.sizes` array after the first k requests; `SizeStringsAt` states its elements |
| RequestBuilder.SizeStringsAt | modules/mediaimpactBidAdapter.js:84 | the j-th `sizes` element is the `joinSizesToString` of request j's effective sizes |
| RequestBuilder.Beacon | modules/mediaimpactBidAdapter.js:84-95 | the query parameters after the loop; `PartnerKeyPresence`, `BeaconIdsRoundTrip`, `BeaconSizesRoundTrip` and `BeaconSizesSeparateRequests` state what they hold, and `BuildRequests` is proved to send them |
| RequestBuilder.PartnerKeyPresence | modules/mediaimpactBidAdapter.js:88-92 | the `partner` key is present exactly when some request has a truthy partner id |
| RequestBuilder.BeaconIdsRoundTrip | modules/mediaimpactBidAdapter.js:88-94 | when at least one id was collected and no id holds a ',', splitting `tag` (or `partner`) on ',' gives the collected ids back |
| RequestBuilder.BeaconSizesRoundTrip | modules/mediaimpactBidAdapter.js:84-95 | splitting `sizes` on ',' gives one piece per request, in order, each reading back as that request's effective sizes |
| RequestBuilder.BeaconSizesSeparateRequests | modules/mediaimpactBidAdapter.js:84-95 | two or more requests always put a ',' into `sizes` |
| RequestBuilder.VisitBidRequest | modules/mediaimpactBidAdapter.js:49-86 | one callback returns the request's entry and sizes string, extends `tag` and `partner` by its truthy ids, and writes its effective sizes into its video object |
| RequestBuilder.VisitNext | modules/mediaimpactBidAdapter.js:49-86 | one turn of the loop extends every accumulator by what request i contributes, and keeps every video object equal to the fold of the writes so far |
| RequestBuilder.VisitAll | modules/mediaimpactBidAdapter.js:49-86 | after the loop: the entries, `tag`, `partner` and `sizes` lists of the whole batch, the encoded referer (empty for no request), and every video object as the writes left it |
| RequestBuilder.BuildRequests | modules/mediaimpactBidAdapter.js:37-109 | a POST to the fixed endpoint whose query is the beacon of the batch, whose body has one serialised entry per request in order, and after which every video object holds the last write to its "sizes" |
| ResponseInterpreter.Lookup | modules/mediaimpactBidAdapter.js:130 | `serverResponse.body[bid.adUnitCode]` on the body's own keys; `LookupFirst` states what it finds |
| ResponseInterpreter.LookupFirst | modules/mediaimpactBidAdapter.js:130 | a key lookup misses exactly when the body lacks the key, and otherwise yields the value under that key |
| ResponseInterpreter.AdFor | modules/mediaimpactBidAdapter.js:130-132 | the truthy ad under an entry's ad unit code, if any; `LookupFirst`, `InterpretSingle`, `InterpretSound` and `InterpretComplete` state how it selects the bids |
| ResponseInterpreter.AdResponse | modules/mediaimpactBidAdapter.js:136-161 | ttl 60 and the request's bid id; the pass-through fields copied; `mediaType` "video" exactly when the ad's is "video", and then `vastXml` is the ad markup, else no `vastXml`; a truthy `meta` replaces the default `{}` wholesale |
| ResponseInterpreter.AdResponseShape | modules/mediaimpactBidAdapter.js:136-161 | every bid has a truthy `meta`, and has `vastXml` only as a video bid |
| ResponseInterpreter.Interpret | modules/mediaimpactBidAdapter.js:127-133 | there are no more bids than echoed entries |
| ResponseInterpreter.InterpretResponse | modules/mediaimpactBidAdapter.js:120-134 | an undefined body gives no bids, and there are never more bids than echoed entries |
| ResponseInterpreter.InterpretAppend | modules/mediaimpactBidAdapter.js:127-133 | order is preserved: the bids for a + b are the bids for a followed by those for b |
| ResponseInterpreter.InterpretSingle | modules/mediaimpactBidAdapter.js:127-133 | one entry gives its `adResponse` when the body has a truthy ad for it, and nothing otherwise |
| ResponseInterpreter.InterpretSound | modules/mediaimpactBidAdapter.js:127-133 | every bid is the `adResponse` of some echoed entry that has a truthy ad |
| ResponseInterpreter.InterpretComplete | modules/mediaimpactBidAdapter.js:127-133 | every echoed entry with a truthy ad gets its bid |
| ResponseInterpreter.InterpretAllMatched | modules/mediaimpactBidAdapter.js:127-133 | when every entry has an ad, bid i answers entry i and there is one bid per entry |
| ResponseInterpreter.InterpretNoneMatched | modules/mediaimpactBidAdapter.js:127-133 | when no entry has an ad, there are no bids |
| UserSyncs.GdprParams | modules/mediaimpactBidAdapter.js:198-205 | there is a consent query exactly when there is consent data |
| UserSyncs.GdprParamsShape | modules/mediaimpactBidAdapter.js:198-205 | the query ends with `gdpr_consent=<s>` ("undefined" for a missing string); it is only that when `gdprApplies` is not a boolean, and otherwise it is `gdpr=`, the flag ('1' exactly when GDPR applies) and '&' before it |
| UserSyncs.AppendGdprParams | modules/mediaimpactBidAdapter.js:190-196 | without consent the link is unchanged; with it, the result is one character longer than link and query together |
| UserSyncs.AppendGdprParamsShape | modules/mediaimpactBidAdapter.js:190-196 | the link is kept as a prefix, followed by '&' if it had a '?' and '?' otherwise, then the query; when neither had a '?', that separator is the only one |
| UserSyncs.Matches | modules/mediaimpactBidAdapter.js:215-232 | the filters of the two passes (lines 216-218 and 229-231): a defined type naming the pass's kind and a defined link; `PassSyncsSound` and `PassSyncsComplete` state that exactly the matching elements yield syncs |
| UserSyncs.PassSyncs | modules/mediaimpactBidAdapter.js:214-238 | one filter-and-push pass; `PassSyncsSound`, `PassSyncsComplete`, `PassSyncsKind` and `PushPass` state its properties |
| UserSyncs.SyncItems | modules/mediaimpactBidAdapter.js:211-213 | the guard: the `syncs` array of a value whose `syncs` is a non-empty array, else nothing; `AdSyncs`, `AdSyncsOrdered` and `PushAdSyncs` use it |
| UserSyncs.AdSyncs | modules/mediaimpactBidAdapter.js:210-240 | the syncs of one key's value; `AdSyncsOrdered` and `PushAdSyncs` state its properties |
| UserSyncs.BodySyncs | modules/mediaimpactBidAdapter.js:208-242 | the syncs of one response body, key by key; `BodySyncsEnabled` and `PushBodySyncs` state its properties |
| UserSyncs.ResponsesSyncs | modules/mediaimpactBidAdapter.js:207-243 | the syncs of a list of responses, in order, skipping those without a body; `ResponsesSyncsEnabled`, `NothingEnabledNothingCollected` and `GetUserSyncs` state its properties |
| UserSyncs.UserSyncsOf | modules/mediaimpactBidAdapter.js:183-246 | the result of `getUserSyncs`; `GetUserSyncs` is proved equal to it, and `UserSyncsEnabled`, `NothingEnabledNothingCollected` and `OneImageSync` state its properties |
| UserSyncs.PassSyncsSound | modules/mediaimpactBidAdapter.js:214-238 | a pass emits only syncs of its kind, each the link of an element with a defined type of that kind and a defined link, with the consent query appended |
| UserSyncs.PassSyncsComplete | modules/mediaimpactBidAdapter.js:214-238 | a pass emits a sync for every matching element |
| UserSyncs.PassSyncsKind | modules/mediaimpactBidAdapter.js:214-238 | every sync of a pass has the pass's kind |
| UserSyncs.AdSyncsOrdered | modules/mediaimpactBidAdapter.js:211-240 | for one ad, every iframe sync comes before every image sync, and only enabled kinds appear |
| UserSyncs.BodySyncsEnabled | modules/mediaimpactBidAdapter.js:209-241 | every sync of a response body is of an enabled kind |
| UserSyncs.ResponsesSyncsEnabled | modules/mediaimpactBidAdapter.js:207-243 | every sync of a list of responses is of an enabled kind |
| UserSyncs.UserSyncsEnabled | modules/mediaimpactBidAdapter.js:183-246 | getUserSyncs returns only kinds of sync the publisher enabled |
| UserSyncs.NothingEnabledNothingCollected | modules/mediaimpactBidAdapter.js:186-188 | with neither kind enabled the collection would be empty anyway, so the early return changes no result |
| UserSyncs.OneImageSync | modules/mediaimpactBidAdapter.js:183-246 | one image sync to a link without '?', pixels allowed and consent given: exactly that sync, with '?' and the consent query appended |
| UserSyncs.PushPass | modules/mediaimpactBidAdapter.js:214-238 | the filter-and-push loop of one pass appends exactly that pass's syncs |
| UserSyncs.PushAdSyncs | modules/mediaimpactBidAdapter.js:210-240 | one key's callback appends the ad's syncs: nothing without a non-empty `syncs` array, else the enabled passes, iframe first |
| UserSyncs.PushBodySyncs | modules/mediaimpactBidAdapter.js:208-242 | the loop over a body's keys appends the body's syncs, key by key |
| UserSyncs.GetUserSyncs | modules/mediaimpactBidAdapter.js:183-246 | the result is the syncs of every response in order, or nothing when neither kind is enabled |

## Left out

- `onBidWon` and `postRequest` (lines 163-181) fire network requests through `ajax`, and `registerBidder` (line 250) registers the adapter at load time. These are side effects with nothing to state.
- `buildUrl`, `deepAccess`, `encodeURIComponent`, `JSON.stringify` and `JSON.parse` are library code that is not part of this model. The URL is returned as its parts and the query parameters as a record. `encodeURIComponent` is a function parameter. The request body is the list of entries, and a serialised video object is the snapshot of its keys.
- `window.location.href` is a parameter of `BuildRequests`.
- `encodeURIComponent(referer)` is applied once per request, as in the source. The model treats it as a pure function, so every call gives the same value.
- Numbers are unbounded integers. JavaScript doubles lose precision above 2^53, and `parseInt` of "-0" gives -0. Neither is modelled. Sizes are integers: a fractional size or one in exponent form is not modelled.
- Ids are modelled as the string form of the value the caller wrote (`String(value)`). An id whose string form is in exponent notation is read the same way `parseInt` would read that string.
- Inputs that make the source throw are not modelled:
  - a null `mediaTypes.video`
  - a null response body in `interpretResponse`
  - a null value under a body key, or a null element of `syncs`, in `getUserSyncs` (the model treats a null value like any other falsy value, which yields no syncs)
  - `params` missing from a request
  - a request without `sizes` and without `params.sizes`: `joinSizesToString(undefined)` fails at line 84. Every falsy `sizes` fails there, so on a run that returns, the `if (sizes)` guard at line 66 always holds, and the model's unconditional write of `video.sizes` is exact.
  - a non-string `link` of a matching sync element when consent data is present: `url.indexOf` fails at line 195
- A `mediaTypes.video` that is defined but not an object (false, 0, "", true, a string) is not modelled: the video configuration is either absent or an object. The source rejects such a request at lines 26-27, because `Array.isArray` of its `playerSize` is false; mapping it to an absent configuration would make the model accept it.
- A non-string `link` without consent data is passed through as the url unchanged. It is not modelled: links are strings.
- Non-array `sizes` values are not modelled.
- `ResponseInterpreter.Lookup`: `serverResponse.body[bid.adUnitCode]` also finds members inherited from `Object.prototype`. An entry whose ad unit code names any member inherited from `Object.prototype` (for example "constructor", "toString", "valueOf", "hasOwnProperty", "isPrototypeOf", "__proto__"), with no own key of that name in the body, gets a bid in the source. That bid has the request id, every ad field undefined and `meta` `{}`. The model looks up only the body's own keys and gives no bid for such an entry.
- A response body is the list of its keys in enumeration order. A JavaScript object cannot hold a key twice, but the list type admits it, and the two readers treat such a list differently: `ResponseInterpreter.Lookup` takes the first entry with the key, while `UserSyncs.BodySyncs` visits every entry. A truthy body value that is not an object behaves like an ad without keys.
- `ResponseInterpreter.AdResponse`: a `vastXml` key holding `undefined` (a video ad without `ad`) is not told apart from an absent key. Both serialise the same way.
- `UserSyncs.GdprParams`: a consent string that is neither a string nor missing (a number, say) is not modelled; a missing one prints as "undefined".
- `uspConsent` is unused by the source and is not a parameter.
- The contents of `cpm`, `winNotification`, `meta` and the other pass-through fields are opaque JSON values. No floating-point semantics are modelled.

=== FILE: builder.dfy ===
/** buildRequests and joinSizesToString: one POST to the exchange for a batch of
    accepted bid requests, with the batch summarised in the URL's query. */
module RequestBuilder {
  import opened Wrappers
  import opened JsValues
  import opened JsText
  import opened AdapterTypes
  import opened RequestValidation

  // ---------------------------------------------------------------------------
  // Sizes as text
  // ---------------------------------------------------------------------------

  /** The numerals of a size's numbers, in order. */
  function Numerals(size: Size): (ns: seq<string>)
    ensures |ns| == |size|
  {
    if |size| == 0 then [] else Numerals(size[..|size| - 1]) + [IntToString(size[|size| - 1])]
  }

  lemma {:induction false} NumeralsAt(size: Size, i: nat)
    requires i < |size|
    ensures Numerals(size)[i] == IntToString(size[i])
  {
    if i < |size| - 1 {
      NumeralsAt(size[..|size| - 1], i);
    }
  }

  /** `size.join('x')`: "300x250" for [300, 250]. */
  function SizeString(size: Size): string {
    Join(Numerals(size), 'x')
  }

  /** The strings of a list of sizes, in order. */
  function SizeStringList(sizes: seq<Size>): (ss: seq<string>)
    ensures |ss| == |sizes|
  {
    if |sizes| == 0 then [] else SizeStringList(sizes[..|sizes| - 1]) + [SizeString(sizes[|sizes| - 1])]
  }

  lemma {:induction false} SizeStringListAt(sizes: seq<Size>, i: nat)
    requires i < |sizes|
    ensures SizeStringList(sizes)[i] == SizeString(sizes[i])
  {
    if i < |sizes| - 1 {
      SizeStringListAt(sizes[..|sizes| - 1], i);
    }
  }

  /** The specification of joinSizesToString: the sizes' strings, in order,
      separated by '|'. */
  function SizesString(sizes: seq<Size>): string {
    Join(SizeStringList(sizes), '|')
  }

  /** `joinSizesToString`: collects each size's string, then joins them. */
  method JoinSizesToString(sizes: seq<Size>) returns (s: string)
    ensures s == SizesString(sizes)
  {
    var res: seq<string> := [];
    for i := 0 to |sizes|
      invariant res == SizeStringList(sizes[..i])
    {
      assert sizes[..i + 1][..i] == sizes[..i];
      res := res + [SizeString(sizes[i])];
    }
    assert sizes[..|sizes|] == sizes;
    s := Join(res, '|');
  }

  /** Reads one size back: the numbers between 'x'. */
  function ParseSize(p: string): Size {
    var nums := Split(p, 'x');
    seq(|nums|, k requires 0 <= k < |nums| => ParseInt(nums[k]).GetOr(0))
  }

  /** Reads a sizes string back: the sizes between '|'. */
  function ParseSizes(s: string): seq<Size> {
    if s == "" then []
    else
      var pieces := Split(s, '|');
      seq(|pieces|, i requires 0 <= i < |pieces| => ParseSize(pieces[i]))
  }

  lemma NumeralHasNoSeparator(n: int, c: char)
    requires !IsDecimalDigit(c) && c != '-'
    ensures c !in IntToString(n)
  {
    IntToStringChars(n);
  }

  /** A size's string holds no '|' nor ',', is not empty, and reads back as the size. */
  lemma {:induction false} SizeStringRoundTrip(size: Size)
    requires |size| > 0
    ensures '|' !in SizeString(size) && ',' !in SizeString(size)
    ensures SizeString(size) != ""
    ensures ParseSize(SizeString(size)) == size
  {
    var nums := Numerals(size);
    forall i | 0 <= i < |nums| ensures 'x' !in nums[i] && '|' !in nums[i] && ',' !in nums[i] {
      NumeralsAt(size, i);
      NumeralHasNoSeparator(size[i], 'x');
      NumeralHasNoSeparator(size[i], '|');
      NumeralHasNoSeparator(size[i], ',');
    }
    JoinAvoids(nums, 'x', '|');
    JoinAvoids(nums, 'x', ',');
    SplitJoin(nums, 'x');
    forall k | 0 <= k < |size| ensures ParseInt(nums[k]) == Some(size[k]) {
      NumeralsAt(size, k);
      ParseIntRoundTrip(size[k]);
    }
  }

  /** joinSizesToString loses nothing when every size has at least one number:
      the string reads back as the same sizes, and it holds no ','. (An empty
      size list and a list holding one empty size both give "".) */
  lemma {:induction false} SizesRoundTrip(sizes: seq<Size>)
    requires forall i :: 0 <= i < |sizes| ==> |sizes[i]| > 0
    ensures ParseSizes(SizesString(sizes)) == sizes
    ensures ',' !in SizesString(sizes)
  {
    var strs := SizeStringList(sizes);
    SizeStringListRoundTrip(sizes);
    JoinAvoids(strs, '|', ',');
    if |sizes| > 0 {
      SplitJoin(strs, '|');
      assert SizesString(sizes) != "";
    }
  }

  /** Each string of the list is a non-empty piece without '|' or ',' that reads
      back as its size. */
  lemma SizeStringListRoundTrip(sizes: seq<Size>)
    requires forall i :: 0 <= i < |sizes| ==> |sizes[i]| > 0
    ensures forall i :: 0 <= i < |sizes| ==>
      var s := SizeStringList(sizes)[i]; '|' !in s && ',' !in s && s != "" && ParseSize(s) == sizes[i]
  {
    forall i | 0 <= i < |sizes|
      ensures var s := SizeStringList(sizes)[i]; '|' !in s && ',' !in s && s != "" && ParseSize(s) == sizes[i]
    {
      SizeStringListAt(sizes, i);
      SizeStringRoundTrip(sizes[i]);
    }
  }

  /** A single size gives no '|', and no sizes give "". */
  lemma SizesSeparators(sizes: seq<Size>)
    ensures |sizes| == 0 ==> SizesString(sizes) == ""
    ensures |sizes| == 1 ==> '|' !in SizesString(sizes) && SizesString(sizes) == SizeString(sizes[0])
  {
    if |sizes| == 1 {
      SizeStringListAt(sizes, 0);
      var nums := Numerals(sizes[0]);
      forall i | 0 <= i < |nums| ensures '|' !in nums[i] {
        NumeralsAt(sizes[0], i);
        NumeralHasNoSeparator(sizes[0][i], '|');
      }
      JoinAvoids(nums, 'x', '|');
    }
  }

  // ---------------------------------------------------------------------------
  // One outbound entry per bid request
  // ---------------------------------------------------------------------------

  /** `bidderRequest.refererInfo.page || window.location.href`. */
  function Referer(page: Option<string>, locationHref: string): (r: string)
    ensures page.Some? && page.value != "" ==> r == page.value
    ensures page.None? || page.value == "" ==> r == locationHref
  {
    if page.Some? && page.value != "" then page.value else locationHref
  }

  /** `params.sizes` when it is defined, else the request's own sizes. */
  function EffectiveSizes(r: BidRequest): (s: seq<Size>)
    ensures r.params.sizes.Some? ==> s == r.params.sizes.value
    ensures r.params.sizes.None? ==> s == r.sizes
  {
    if r.params.sizes.Some? then r.params.sizes.value else r.sizes
  }

  /** The outbound entry for one request. A truthy partner id wins: the entry then
      carries it and a unit id of 0. Otherwise a truthy unit id is carried and no
      partner id. The entry refers to the request's own video object. */
  function Record(r: BidRequest, referer: string): (b: OutboundBid<VideoConfig>)
    ensures b.adUnitCode == r.adUnitCode && b.bidId == r.bidId && b.referer == referer
    ensures b.sizes == EffectiveSizes(r) && b.video == r.video
    ensures ParsedId(r.params.partnerId).Some? ==>
      b.unitId == Some(0) && b.partnerId == ParsedId(r.params.partnerId)
    ensures ParsedId(r.params.partnerId).None? ==>
      b.unitId == ParsedId(r.params.unitId) && b.partnerId.None?
  {
    var partner := ParsedId(r.params.partnerId);
    OutboundBid(r.adUnitCode, EffectiveSizes(r), r.bidId, referer, r.video,
                if partner.Some? then Some(0) else ParsedId(r.params.unitId), partner)
  }

  /** Every request that validation accepts yields an entry that identifies
      itself by exactly one non-zero id. */
  lemma ValidRecordHasOneId(r: BidRequest, referer: string)
    requires IsBidRequestValid(r)
    ensures var b := Record(r, referer);
      (b.partnerId.Some? && b.partnerId.value != 0 && b.unitId == Some(0))
      || (b.partnerId.None? && b.unitId.Some? && b.unitId.value != 0)
  {
  }

  /** The outbound entries of the first `k` requests of a batch, in request order. */
  function Records(reqs: seq<BidRequest>, k: nat, referer: string): (bs: seq<OutboundBid<VideoConfig>>)
    requires k <= |reqs|
    ensures |bs| == k
  {
    if k == 0 then [] else Records(reqs, k - 1, referer) + [Record(reqs[k - 1], referer)]
  }

  /** Entry `j` is the record of request `j`. */
  lemma {:induction false} RecordsAt(reqs: seq<BidRequest>, k: nat, referer: string)
    requires k <= |reqs|
    ensures forall j :: 0 <= j < k ==> Records(reqs, k, referer)[j] == Record(reqs[j], referer)
  {
    if k > 0 {
      RecordsAt(reqs, k - 1, referer);
    }
  }

  /** JSON.stringify of the video reference: the object's keys as they are now. */
  function Serialize(b: OutboundBid<VideoConfig>): (s: OutboundBid<map<string, Json>>)
    reads if b.video.Some? then {b.video.value} else {}
    ensures s.video.Some? <==> b.video.Some?
    ensures s.video.Some? ==> s.video.value == b.video.value.fields
    ensures s.adUnitCode == b.adUnitCode && s.sizes == b.sizes && s.bidId == b.bidId
    ensures s.referer == b.referer && s.unitId == b.unitId && s.partnerId == b.partnerId
  {
    var video := if b.video.Some? then Some(b.video.value.fields) else None;
    OutboundBid(b.adUnitCode, b.sizes, b.bidId, b.referer, video, b.unitId, b.partnerId)
  }

  /** The JSON value of a sizes list. */
  function SizesJson(sizes: seq<Size>): Json {
    JArr(seq(|sizes|, i requires 0 <= i < |sizes| =>
      JArr(seq(|sizes[i]|, k requires 0 <= k < |sizes[i]| => JNum(sizes[i][k] as real)))))
  }

  /** The video objects of a batch. */
  function Videos(reqs: seq<BidRequest>): set<VideoConfig> {
    set i | 0 <= i < |reqs| && reqs[i].video.Some? :: reqs[i].video.value
  }

  /** The keys of video object `v` after the first `k` requests have been
      processed, starting from `init`: every request that refers to `v` writes
      its effective sizes under "sizes". */
  function FieldsAfter(reqs: seq<BidRequest>, k: nat, v: VideoConfig, init: map<string, Json>): map<string, Json>
    requires k <= |reqs|
  {
    if k == 0 then init
    else
      var before := FieldsAfter(reqs, k - 1, v, init);
      if reqs[k - 1].video == Some(v) then before["sizes" := SizesJson(EffectiveSizes(reqs[k - 1]))]
      else before
  }

  /** Processing only ever writes the "sizes" key. */
  lemma {:induction false} OnlySizesWritten(reqs: seq<BidRequest>, k: nat, v: VideoConfig, init: map<string, Json>, x: Json)
    requires k <= |reqs|
    ensures FieldsAfter(reqs, k, v, init)["sizes" := x] == init["sizes" := x]
  {
    if k > 0 {
      OnlySizesWritten(reqs, k - 1, v, init, x);
      var before := FieldsAfter(reqs, k - 1, v, init);
      assert before["sizes" := SizesJson(EffectiveSizes(reqs[k - 1]))]["sizes" := x] == before["sizes" := x];
    }
  }

  /** A video object that several requests share ends up with the sizes of the
      last of them. */
  lemma {:induction false} LastWriterWins(reqs: seq<BidRequest>, k: nat, v: VideoConfig, init: map<string, Json>, j: nat)
    requires j < k <= |reqs| && reqs[j].video == Some(v)
    requires forall m :: j < m < k ==> reqs[m].video != Some(v)
    ensures FieldsAfter(reqs, k, v, init) == init["sizes" := SizesJson(EffectiveSizes(reqs[j]))]
  {
    if k - 1 > j {
      LastWriterWins(reqs, k - 1, v, init, j);
    } else {
      OnlySizesWritten(reqs, j, v, init, SizesJson(EffectiveSizes(reqs[j])));
    }
  }

  /** A video object that no request of the first `k` refers to is unchanged. */
  lemma {:induction false} UntouchedVideo(reqs: seq<BidRequest>, k: nat, v: VideoConfig, init: map<string, Json>)
    requires k <= |reqs|
    requires forall m :: 0 <= m < k ==> reqs[m].video != Some(v)
    ensures FieldsAfter(reqs, k, v, init) == init
  {
    if k > 0 {
      UntouchedVideo(reqs, k - 1, v, init);
    }
  }

  // ---------------------------------------------------------------------------
  // The beacon parameters
  // ---------------------------------------------------------------------------

  datatype IdField = UnitIdField | PartnerIdField

  function RawId(r: BidRequest, f: IdField): Option<string> {
    match f
    case UnitIdField => r.params.unitId
    case PartnerIdField => r.params.partnerId
  }

  /** The raw ids of the given kind that parse truthy among the first `k`
      requests, in request order: the `tag` list for unit ids, the `partner`
      list for partner ids. */
  function CollectedIds(reqs: seq<BidRequest>, k: nat, f: IdField): (ids: seq<string>)
    requires k <= |reqs|
    ensures |ids| <= k
  {
    if k == 0 then []
    else
      var r := reqs[k - 1];
      CollectedIds(reqs, k - 1, f) + (if ParsedId(RawId(r, f)).Some? then [RawId(r, f).value] else [])
  }

  /** Every collected id parses to a non-zero integer. */
  lemma {:induction false} CollectedIdsParse(reqs: seq<BidRequest>, k: nat, f: IdField)
    requires k <= |reqs|
    ensures forall m :: 0 <= m < |CollectedIds(reqs, k, f)| ==>
      ParseInt(CollectedIds(reqs, k, f)[m]).Some? && ParseInt(CollectedIds(reqs, k, f)[m]).value != 0
  {
    if k > 0 {
      CollectedIdsParse(reqs, k - 1, f);
    }
  }

  /** The list is empty exactly when no request has a truthy id of that kind. */
  lemma {:induction false} CollectedIdsEmpty(reqs: seq<BidRequest>, k: nat, f: IdField)
    requires k <= |reqs|
    ensures CollectedIds(reqs, k, f) == [] <==> forall i :: 0 <= i < k ==> ParsedId(RawId(reqs[i], f)).None?
  {
    if k > 0 {
      CollectedIdsEmpty(reqs, k - 1, f);
    }
  }

  /** Every request whose id of that kind is truthy contributes its raw id. */
  lemma {:induction false} CollectedIdsComplete(reqs: seq<BidRequest>, k: nat, f: IdField, i: nat)
    requires i < k <= |reqs| && ParsedId(RawId(reqs[i], f)).Some?
    ensures RawId(reqs[i], f).value in CollectedIds(reqs, k, f)
  {
    if i < k - 1 {
      CollectedIdsComplete(reqs, k - 1, f, i);
    }
  }

  /** The per-request sizes strings of the first `k` requests, in order. */
  function SizeStrings(reqs: seq<BidRequest>, k: nat): (s: seq<string>)
    requires k <= |reqs|
    ensures |s| == k
  {
    if k == 0 then [] else SizeStrings(reqs, k - 1) + [SizesString(EffectiveSizes(reqs[k - 1]))]
  }

  lemma {:induction false} SizeStringsAt(reqs: seq<BidRequest>, k: nat, i: nat)
    requires i < k <= |reqs|
    ensures SizeStrings(reqs, k)[i] == SizesString(EffectiveSizes(reqs[i]))
  {
    if i < k - 1 {
      SizeStringsAt(reqs, k - 1, i);
    }
  }

  /** The query parameters of a batch: `partner` only when some partner id was
      collected; `referer` stays empty for an empty batch because it is only set
      inside the loop. */
  function Beacon(reqs: seq<BidRequest>, referer: string, encode: string -> string): BeaconParams {
    var partner := CollectedIds(reqs, |reqs|, PartnerIdField);
    BeaconParams(
      Join(CollectedIds(reqs, |reqs|, UnitIdField), ','),
      if |partner| > 0 then Some(Join(partner, ',')) else None,
      Join(SizeStrings(reqs, |reqs|), ','),
      if |reqs| == 0 then "" else encode(referer))
  }

  /** The `partner` key is present exactly when some request has a partner id
      that parses to a non-zero integer. */
  lemma PartnerKeyPresence(reqs: seq<BidRequest>, referer: string, encode: string -> string)
    ensures Beacon(reqs, referer, encode).partner.None? <==>
      forall i :: 0 <= i < |reqs| ==> ParsedId(reqs[i].params.partnerId).None?
  {
    CollectedIdsEmpty(reqs, |reqs|, PartnerIdField);
  }

  /** The `tag` and `partner` values read back, by splitting on ',', as the
      collected ids, as long as no id holds a comma. */
  lemma BeaconIdsRoundTrip(reqs: seq<BidRequest>, referer: string, encode: string -> string, f: IdField)
    requires |CollectedIds(reqs, |reqs|, f)| > 0
    requires forall i :: 0 <= i < |reqs| && RawId(reqs[i], f).Some? ==> ',' !in RawId(reqs[i], f).value
    ensures var b := Beacon(reqs, referer, encode);
      Split(if f == UnitIdField then b.tag else b.partner.value, ',') == CollectedIds(reqs, |reqs|, f)
  {
    CollectedIdsAvoid(reqs, |reqs|, f, ',');
    SplitJoin(CollectedIds(reqs, |reqs|, f), ',');
  }

  /** A unit id that parses truthy is tagged even when the request's partner id
      sets the entry's unit id to 0. */
  lemma UnitIdTaggedWhenOverridden(reqs: seq<BidRequest>, referer: string, i: nat)
    requires i < |reqs|
    requires ParsedId(reqs[i].params.unitId).Some? && ParsedId(reqs[i].params.partnerId).Some?
    ensures Record(reqs[i], referer).unitId == Some(0)
    ensures reqs[i].params.unitId.value in CollectedIds(reqs, |reqs|, UnitIdField)
    ensures reqs[i].params.partnerId.value in CollectedIds(reqs, |reqs|, PartnerIdField)
  {
    CollectedIdsComplete(reqs, |reqs|, UnitIdField, i);
    CollectedIdsComplete(reqs, |reqs|, PartnerIdField, i);
  }

  /** A character that no raw id holds is in no collected id. */
  lemma {:induction false} CollectedIdsAvoid(reqs: seq<BidRequest>, k: nat, f: IdField, c: char)
    requires k <= |reqs|
    requires forall i :: 0 <= i < k && RawId(reqs[i], f).Some? ==> c !in RawId(reqs[i], f).value
    ensures forall m :: 0 <= m < |CollectedIds(reqs, k, f)| ==> c !in CollectedIds(reqs, k, f)[m]
  {
    if k > 0 {
      CollectedIdsAvoid(reqs, k - 1, f, c);
    }
  }

  /** The `sizes` value reads back, piece by piece, as every request's effective
      sizes: one comma-separated piece per request, in request order. */
  lemma BeaconSizesRoundTrip(reqs: seq<BidRequest>, referer: string, encode: string -> string)
    requires |reqs| > 0
    requires forall i, k :: 0 <= i < |reqs| && 0 <= k < |EffectiveSizes(reqs[i])| ==> |EffectiveSizes(reqs[i])[k]| > 0
    ensures var pieces := Split(Beacon(reqs, referer, encode).sizes, ',');
      |pieces| == |reqs| && forall i :: 0 <= i < |reqs| ==> ParseSizes(pieces[i]) == EffectiveSizes(reqs[i])
  {
    var strs := SizeStrings(reqs, |reqs|);
    forall i | 0 <= i < |reqs| ensures ',' !in strs[i] && ParseSizes(strs[i]) == EffectiveSizes(reqs[i]) {
      SizeStringsAt(reqs, |reqs|, i);
      SizesRoundTrip(EffectiveSizes(reqs[i]));
    }
    SplitJoin(strs, ',');
  }

  /** Two or more requests always put a ',' into the `sizes` value, whatever
      their sizes: "300x250,728x90|300x600" for the two requests [[300, 250]]
      and [[728, 90], [300, 600]], never "300x250|728x90|300x600". */
  lemma BeaconSizesSeparateRequests(reqs: seq<BidRequest>, referer: string, encode: string -> string)
    requires |reqs| >= 2
    ensures ',' in Beacon(reqs, referer, encode).sizes
  {
    JoinHoldsSeparator(SizeStrings(reqs, |reqs|), ',');
  }

  // ---------------------------------------------------------------------------
  // buildRequests
  // ---------------------------------------------------------------------------

  /** The forEach callback of buildRequests for one request: builds its outbound
      entry, writes the effective sizes into its video object, pushes its truthy
      ids onto `tag` and `partner`, and serialises its sizes. */
  method VisitBidRequest(r: BidRequest, referer: string, tag: seq<string>, partner: seq<string>)
    returns (entry: OutboundBid<VideoConfig>, tag': seq<string>, partner': seq<string>, sizesString: string)
    modifies VideoFrame(r)
    ensures entry == Record(r, referer)
    ensures tag' == tag + (if ParsedId(r.params.unitId).Some? then [r.params.unitId.value] else [])
    ensures partner' == partner + (if ParsedId(r.params.partnerId).Some? then [r.params.partnerId.value] else [])
    ensures sizesString == SizesString(EffectiveSizes(r))
    ensures r.video.Some? ==>
      r.video.value.fields == old(r.video.value.fields)["sizes" := SizesJson(EffectiveSizes(r))]
  {
    tag', partner' := tag, partner;
    var sizes := r.sizes;
    if r.params.sizes.Some? {
      sizes := r.params.sizes.value;
    }
    entry := OutboundBid(r.adUnitCode, sizes, r.bidId, referer, None, None, None);
    if r.video.Some? {
      entry := entry.(video := r.video);
      // `sizes` is an array here, and arrays are truthy
      var video := r.video.value;
      video.fields := video.fields["sizes" := SizesJson(sizes)];
    }
    if ParsedId(r.params.unitId).Some? {
      entry := entry.(unitId := ParsedId(r.params.unitId));
      tag' := tag' + [r.params.unitId.value];
    }
    if ParsedId(r.params.partnerId).Some? {
      entry := entry.(unitId := Some(0), partnerId := ParsedId(r.params.partnerId));
      partner' := partner' + [r.params.partnerId.value];
    }
    sizesString := JoinSizesToString(sizes);
  }

  /** The heap condition of the loop: every video object of the batch holds
      what the first `i` requests wrote over its keys before the loop. */
  ghost predicate VideosAfter(reqs: seq<BidRequest>, i: nat, init: map<VideoConfig, map<string, Json>>)
    requires i <= |reqs|
    reads Videos(reqs)
  {
    forall j :: 0 <= j < |reqs| && reqs[j].video.Some? ==>
      var v := reqs[j].video.value; v in init && v.fields == FieldsAfter(reqs, i, v, init[v])
  }

  /** The loop's heap condition, restated over the video objects themselves. */
  lemma AllVideosAfter(reqs: seq<BidRequest>, init: map<VideoConfig, map<string, Json>>)
    requires VideosAfter(reqs, |reqs|, init)
    ensures forall v :: v in Videos(reqs) ==> v in init && v.fields == FieldsAfter(reqs, |reqs|, v, init[v])
  {
    forall v | v in Videos(reqs)
      ensures v in init && v.fields == FieldsAfter(reqs, |reqs|, v, init[v])
    {
      var j :| 0 <= j < |reqs| && reqs[j].video == Some(v);
    }
  }

  /** One turn of the loop of buildRequests: runs the callback on request `i`
      and extends every accumulator by what that request contributes. */
  method VisitNext(reqs: seq<BidRequest>, i: nat, referer: string, ghost init: map<VideoConfig, map<string, Json>>,
                   bidRequests: seq<OutboundBid<VideoConfig>>, tag: seq<string>, partner: seq<string>,
                   sizesParam: seq<string>)
    returns (bidRequests': seq<OutboundBid<VideoConfig>>, tag': seq<string>, partner': seq<string>,
             sizesParam': seq<string>)
    requires i < |reqs|
    requires bidRequests == Records(reqs, i, referer)
    requires tag == CollectedIds(reqs, i, UnitIdField)
    requires partner == CollectedIds(reqs, i, PartnerIdField)
    requires sizesParam == SizeStrings(reqs, i)
    requires VideosAfter(reqs, i, init)
    modifies Videos(reqs)
    ensures bidRequests' == Records(reqs, i + 1, referer)
    ensures tag' == CollectedIds(reqs, i + 1, UnitIdField)
    ensures partner' == CollectedIds(reqs, i + 1, PartnerIdField)
    ensures sizesParam' == SizeStrings(reqs, i + 1)
    ensures VideosAfter(reqs, i + 1, init)
  {
    var r := reqs[i];
    assert VideoFrame(r) <= Videos(reqs);
    label BeforeVisit:
    var entry, joined;
    entry, tag', partner', joined := VisitBidRequest(r, referer, tag, partner);
    forall j | 0 <= j < |reqs| && reqs[j].video.Some?
      ensures var v := reqs[j].video.value; v in init && v.fields == FieldsAfter(reqs, i + 1, v, init[v])
    {
      var v := reqs[j].video.value;
      assert old@BeforeVisit(v.fields) == FieldsAfter(reqs, i, v, init[v]);
    }
    bidRequests' := bidRequests + [entry];
    sizesParam' := sizesParam + [joined];
  }

  /** The `validBidRequests.forEach(...)` loop of buildRequests: visits every
      request in order and returns what the callback accumulated: the outbound
      entries, the `tag`, `partner` and `sizes` lists and the encoded referer
      (still empty when there was no request). */
  method VisitAll(validBidRequests: seq<BidRequest>, referer: string, encode: string -> string)
    returns (bidRequests: seq<OutboundBid<VideoConfig>>, tag: seq<string>, partner: seq<string>,
             sizesParam: seq<string>, encodedReferer: string)
    modifies Videos(validBidRequests)
    ensures bidRequests == Records(validBidRequests, |validBidRequests|, referer)
    ensures tag == CollectedIds(validBidRequests, |validBidRequests|, UnitIdField)
    ensures partner == CollectedIds(validBidRequests, |validBidRequests|, PartnerIdField)
    ensures sizesParam == SizeStrings(validBidRequests, |validBidRequests|)
    ensures encodedReferer == if |validBidRequests| == 0 then "" else encode(referer)
    ensures forall v :: v in Videos(validBidRequests) ==>
      v.fields == FieldsAfter(validBidRequests, |validBidRequests|, v, old(v.fields))
  {
    ghost var init := map v | v in Videos(validBidRequests) :: v.fields;
    bidRequests, tag, partner, sizesParam, encodedReferer := [], [], [], [], "";
    for i := 0 to |validBidRequests|
      invariant bidRequests == Records(validBidRequests, i, referer)
      invariant tag == CollectedIds(validBidRequests, i, UnitIdField)
      invariant partner == CollectedIds(validBidRequests, i, PartnerIdField)
      invariant sizesParam == SizeStrings(validBidRequests, i)
      invariant encodedReferer == if i == 0 then "" else encode(referer)
      invariant VideosAfter(validBidRequests, i, init)
    {
      bidRequests, tag, partner, sizesParam :=
        VisitNext(validBidRequests, i, referer, init, bidRequests, tag, partner, sizesParam);
      encodedReferer := encode(referer);
    }
    AllVideosAfter(validBidRequests, init);
  }

  /** `buildRequests`: after the loop it joins the lists with ',', drops an empty
      `partner`, and serialises the entries, so the body shows every video
      object as the loop left it. `encode` is encodeURIComponent and
      `locationHref` the page's own address. */
  method BuildRequests(validBidRequests: seq<BidRequest>, page: Option<string>, locationHref: string,
                       encode: string -> string)
    returns (request: ServerRequest)
    modifies Videos(validBidRequests)
    ensures request.httpMethod == "POST"
    ensures request.protocol == ENDPOINT_PROTOCOL && request.hostname == ENDPOINT_DOMAIN
    ensures request.pathname == ENDPOINT_PATH
    ensures request.search == Beacon(validBidRequests, Referer(page, locationHref), encode)
    ensures |request.data| == |validBidRequests|
    ensures forall i :: 0 <= i < |validBidRequests| ==>
      request.data[i] == Serialize(Record(validBidRequests[i], Referer(page, locationHref)))
    ensures forall v :: v in Videos(validBidRequests) ==>
      v.fields == FieldsAfter(validBidRequests, |validBidRequests|, v, old(v.fields))
  {
    var referer := Referer(page, locationHref);
    var bidRequests, tag, partner, sizesParam, encodedReferer := VisitAll(validBidRequests, referer, encode);
    RecordsAt(validBidRequests, |validBidRequests|, referer);
    var partnerParam := if |partner| > 0 then Some(Join(partner, ',')) else None;
    var search := BeaconParams(Join(tag, ','), partnerParam, Join(sizesParam, ','), encodedReferer);
    var data := seq(|bidRequests|, i requires 0 <= i < |bidRequests| reads Videos(validBidRequests) =>
      Serialize(bidRequests[i]));
    request := ServerRequest("POST", ENDPOINT_PROTOCOL, ENDPOINT_DOMAIN, ENDPOINT_PATH, search, data);
  }
}

=== FILE: interpret.dfy ===
/** interpretResponse and adResponse: the exchange's answer, keyed by ad unit
    code, turned into the bids handed back to the framework. */
module ResponseInterpreter {
  import opened Wrappers
  import opened JsValues
  import opened AdapterTypes

  /** An outbound entry as the request body echoes it back. */
  type EchoedBid = OutboundBid<map<string, Json>>

  /** `body[key]`: the value under `key`, `None` when the key is absent. */
  function Lookup(body: ResponseBody, key: string): Option<BodyValue> {
    if |body| == 0 then None
    else if body[0].0 == key then Some(body[0].1)
    else Lookup(body[1..], key)
  }

  /** The lookup finds a key exactly when the body has it, and then yields the
      value of the first entry with that key. */
  lemma {:induction false} LookupFirst(body: ResponseBody, key: string)
    ensures Lookup(body, key).None? <==> forall i :: 0 <= i < |body| ==> body[i].0 != key
    ensures Lookup(body, key).Some? ==>
      exists i :: 0 <= i < |body| && body[i] == (key, Lookup(body, key).value) && forall j :: 0 <= j < i ==> body[j].0 != key
  {
    if |body| > 0 && body[0].0 != key {
      LookupFirst(body[1..], key);
      if Lookup(body, key).Some? {
        var i :| 0 <= i < |body[1..]| && body[1..][i] == (key, Lookup(body, key).value)
          && forall j :: 0 <= j < i ==> body[1..][j].0 != key;
        assert body[i + 1] == (key, Lookup(body, key).value);
        forall j | 0 <= j < i + 1 ensures body[j].0 != key {
          if j > 0 {
            assert body[j] == body[1..][j - 1];
          }
        }
      }
    }
  }

  /** The ad `item.ad` of an echoed entry, when the body holds a truthy value
      under its ad unit code. */
  function AdFor(body: ResponseBody, bid: EchoedBid): Option<ServerAd> {
    match Lookup(body, bid.adUnitCode)
    case Some(Ad(ad)) => Some(ad)
    case _ => None
  }

  /** `adResponse`: the normalised bid for one echoed entry and its ad. */
  function AdResponse(bid: EchoedBid, ad: ServerAd): (b: NormalizedBid)
    ensures b.requestId == bid.bidId && b.ttl == BID_TTL
    ensures b.ad == ad.ad && b.cpm == ad.cpm && b.width == ad.width && b.height == ad.height
    ensures b.creativeId == ad.creativeId && b.netRevenue == ad.netRevenue
    ensures b.currency == ad.currency && b.winNotification == ad.winNotification
    ensures b.mediaType.Some? <==> ad.mediaType == Some(JStr(VIDEO))
    ensures b.mediaType.Some? ==> b.mediaType.value == VIDEO && b.vastXml == ad.ad
    ensures b.mediaType.None? ==> b.vastXml.None?
    ensures ad.meta.Some? && Truthy(ad.meta.value) ==> b.meta == ad.meta.value
    ensures ad.meta.None? || !Truthy(ad.meta.value) ==> b.meta == JObj(map[])
  {
    var isVideo := ad.mediaType == Some(JStr(VIDEO));
    NormalizedBid(
      bid.bidId, ad.ad, ad.cpm, ad.width, ad.height, BID_TTL, ad.creativeId, ad.netRevenue,
      ad.currency, ad.winNotification,
      if ad.meta.Some? && Truthy(ad.meta.value) then ad.meta.value else JObj(map[]),
      if isVideo then ad.ad else None,
      if isVideo then Some(VIDEO) else None)
  }

  /** Every normalised bid carries a truthy `meta`, and markup for a video
      player only when it is a video bid. */
  lemma AdResponseShape(bid: EchoedBid, ad: ServerAd)
    ensures Truthy(AdResponse(bid, ad).meta)
    ensures AdResponse(bid, ad).vastXml.Some? ==> AdResponse(bid, ad).mediaType == Some(VIDEO)
  {
  }

  /** The map/filter/map chain of interpretResponse over the echoed entries. */
  function Interpret(bids: seq<EchoedBid>, body: ResponseBody): (r: seq<NormalizedBid>)
    ensures |r| <= |bids|
  {
    if |bids| == 0 then []
    else
      var rest := Interpret(bids[1..], body);
      match AdFor(body, bids[0])
      case Some(ad) => [AdResponse(bids[0], ad)] + rest
      case None => rest
  }

  /** `interpretResponse`: no bids for an undefined body, otherwise one bid per
      echoed entry that has an ad, in the entries' order. */
  function InterpretResponse(response: ServerResponse, request: ServerRequest): (r: seq<NormalizedBid>)
    ensures response.body.None? ==> r == []
    ensures |r| <= |request.data|
  {
    if response.body.None? then [] else Interpret(request.data, response.body.value)
  }

  /** Order is preserved: the bids for a batch are the bids for its first part
      followed by the bids for the rest. */
  lemma {:induction false} InterpretAppend(a: seq<EchoedBid>, b: seq<EchoedBid>, body: ResponseBody)
    ensures Interpret(a + b, body) == Interpret(a, body) + Interpret(b, body)
  {
    if |a| > 0 {
      assert (a + b)[1..] == a[1..] + b;
      InterpretAppend(a[1..], b, body);
    } else {
      assert a + b == b;
    }
  }

  /** One entry gives one bid when it has an ad, and none otherwise. */
  lemma InterpretSingle(bid: EchoedBid, body: ResponseBody)
    ensures AdFor(body, bid).Some? ==> Interpret([bid], body) == [AdResponse(bid, AdFor(body, bid).value)]
    ensures AdFor(body, bid).None? ==> Interpret([bid], body) == []
  {
    assert [bid][1..] == [];
  }

  /** Every bid comes from an echoed entry that has an ad. */
  lemma {:induction false} InterpretSound(bids: seq<EchoedBid>, body: ResponseBody)
    ensures forall b :: b in Interpret(bids, body) ==>
      exists i :: 0 <= i < |bids| && AdFor(body, bids[i]).Some? && b == AdResponse(bids[i], AdFor(body, bids[i]).value)
  {
    if |bids| > 0 {
      InterpretSound(bids[1..], body);
      forall b | b in Interpret(bids, body)
        ensures exists i :: 0 <= i < |bids| && AdFor(body, bids[i]).Some? && b == AdResponse(bids[i], AdFor(body, bids[i]).value)
      {
        if b !in Interpret(bids[1..], body) {
          assert AdFor(body, bids[0]).Some? && b == AdResponse(bids[0], AdFor(body, bids[0]).value);
        } else {
          var i :| 0 <= i < |bids[1..]| && AdFor(body, bids[1..][i]).Some?
            && b == AdResponse(bids[1..][i], AdFor(body, bids[1..][i]).value);
          assert bids[1..][i] == bids[i + 1];
        }
      }
    }
  }

  /** Every echoed entry that has an ad gets its bid. */
  lemma {:induction false} InterpretComplete(bids: seq<EchoedBid>, body: ResponseBody, i: nat)
    requires i < |bids| && AdFor(body, bids[i]).Some?
    ensures AdResponse(bids[i], AdFor(body, bids[i]).value) in Interpret(bids, body)
  {
    if i > 0 {
      assert bids[1..][i - 1] == bids[i];
      InterpretComplete(bids[1..], body, i - 1);
    }
  }

  /** When every entry has an ad, there is one bid per entry, and bid `i`
      answers request `i`. */
  lemma {:induction false} InterpretAllMatched(bids: seq<EchoedBid>, body: ResponseBody)
    requires forall i :: 0 <= i < |bids| ==> AdFor(body, bids[i]).Some?
    ensures |Interpret(bids, body)| == |bids|
    ensures forall i :: 0 <= i < |bids| ==> Interpret(bids, body)[i] == AdResponse(bids[i], AdFor(body, bids[i]).value)
  {
    if |bids| > 0 {
      assert forall i :: 0 <= i < |bids[1..]| ==> bids[1..][i] == bids[i + 1];
      InterpretAllMatched(bids[1..], body);
    }
  }

  /** A body without an ad for any entry gives no bids. */
  lemma {:induction false} InterpretNoneMatched(bids: seq<EchoedBid>, body: ResponseBody)
    requires forall i :: 0 <= i < |bids| ==> AdFor(body, bids[i]).None?
    ensures Interpret(bids, body) == []
  {
    if |bids| > 0 {
      assert forall i :: 0 <= i < |bids[1..]| ==> bids[1..][i] == bids[i + 1];
      InterpretNoneMatched(bids[1..], body);
    }
  }
}

=== FILE: jstext.dfy ===
/** The pieces of the JavaScript runtime that the adapter leans on for text:
    the global `parseInt` (called without a radix), `Number.prototype.toString`
    on integers, `Array.prototype.join` and its inverse, `String.prototype.split`
    on one character. Strings are sequences of code points. */
module JsText {
  import opened Wrappers

  // ---------------------------------------------------------------------------
  // parseInt(string) with no radix argument (ECMAScript 2024, section 19.2.5)
  // ---------------------------------------------------------------------------

  /** StrWhiteSpaceChar: the WhiteSpace and LineTerminator code points. */
  predicate IsJsWhitespace(c: char) {
    if c <= ' ' then c == ' ' || '\t' <= c <= '\r'
    else if c < '\U{00A0}' then false
    else
      || c == '\U{00A0}' || c == '\U{1680}' || '\U{2000}' <= c <= '\U{200A}'
      || c == '\U{2028}' || c == '\U{2029}' || c == '\U{202F}' || c == '\U{205F}'
      || c == '\U{3000}' || c == '\U{FEFF}'
  }

  predicate IsDecimalDigit(c: char) {
    '0' <= c <= '9'
  }

  /** A digit of radix 16 when `hex` holds, of radix 10 otherwise. */
  predicate IsRadixDigit(c: char, hex: bool) {
    IsDecimalDigit(c) || (hex && ('a' <= c <= 'f' || 'A' <= c <= 'F'))
  }

  /** The value of a digit; 0 for any other character. */
  function DigitVal(c: char): (d: nat)
    ensures IsDecimalDigit(c) ==> d < 10
    ensures d < 16
  {
    if IsDecimalDigit(c) then c as int - '0' as int
    else if 'a' <= c <= 'f' then c as int - 'a' as int + 10
    else if 'A' <= c <= 'F' then c as int - 'A' as int + 10
    else 0
  }

  /** The length of the longest prefix of `s` made of radix digits. */
  function DigitRun(s: string, hex: bool): (k: nat)
    ensures k <= |s|
  {
    if |s| > 0 && IsRadixDigit(s[0], hex) then 1 + DigitRun(s[1..], hex) else 0
  }

  predicate AllRadixDigits(d: string, hex: bool) {
    forall i :: 0 <= i < |d| ==> IsRadixDigit(d[i], hex)
  }

  /** The number that a string of digits denotes, most significant digit first. */
  function DigitsValue(d: string, hex: bool): nat {
    if d == [] then 0
    else if hex then 16 * DigitsValue(d[..|d| - 1], hex) + DigitVal(d[|d| - 1])
    else 10 * DigitsValue(d[..|d| - 1], hex) + DigitVal(d[|d| - 1])
  }

  /** The unsigned part of parseInt: a `0x`/`0X` prefix switches to radix 16,
      and the longest run of digits that follows is the value; no digit at all
      is NaN. */
  function ParseMagnitude(u: string): Option<nat> {
    var hex := |u| >= 2 && u[0] == '0' && (u[1] == 'x' || u[1] == 'X');
    var digits := if hex then u[2..] else u;
    var k := DigitRun(digits, hex);
    if k == 0 then None else Some(DigitsValue(digits[..k], hex))
  }

  /** `parseInt(s)`: `None` is NaN. Leading white space is skipped, then one
      optional sign, the rest is read by ParseMagnitude, and whatever follows
      the digits is ignored. A negative zero is the integer 0 here. */
  function ParseInt(s: string): Option<int> {
    if |s| > 0 && IsJsWhitespace(s[0]) then ParseInt(s[1..])
    else if |s| > 0 && (s[0] == '-' || s[0] == '+') then
      var m := ParseMagnitude(s[1..]);
      if m.None? then None
      else Some(if s[0] == '-' then -(m.value as int) else m.value)
    else
      var m := ParseMagnitude(s);
      if m.None? then None else Some(m.value)
  }

  // ---------------------------------------------------------------------------
  // Number.prototype.toString() on integers
  // ---------------------------------------------------------------------------

  function DecimalDigit(d: nat): (c: char)
    requires d < 10
    ensures IsDecimalDigit(c) && DigitVal(c) == d
  {
    ['0', '1', '2', '3', '4', '5', '6', '7', '8', '9'][d]
  }

  /** The decimal numeral of `n`: digits only, no leading zero, denoting `n`. */
  function NatToString(n: nat): (s: string)
    ensures |s| > 0
  {
    if n < 10 then [DecimalDigit(n)] else NatToString(n / 10) + [DecimalDigit(n % 10)]
  }

  /** The numeral of `n` is made of digits, has no leading zero, and denotes `n`. */
  lemma {:induction false} NatToStringDigits(n: nat)
    ensures AllRadixDigits(NatToString(n), false)
    ensures NatToString(n)[0] == '0' ==> n == 0 && NatToString(n) == "0"
    ensures DigitsValue(NatToString(n), false) == n
  {
    if n >= 10 {
      NatToStringDigits(n / 10);
      var s := NatToString(n);
      assert s[..|s| - 1] == NatToString(n / 10);
    }
  }

  /** `String(n)` for an integer `n`: an optional minus sign, then the numeral. */
  function IntToString(n: int): (s: string)
    ensures |s| > 0
  {
    if n < 0 then "-" + NatToString(-n) else NatToString(n)
  }

  /** The string of an integer holds only digits and '-'. */
  lemma IntToStringChars(n: int)
    ensures forall i :: 0 <= i < |IntToString(n)| ==> IsDecimalDigit(IntToString(n)[i]) || IntToString(n)[i] == '-'
  {
    NatToStringDigits(if n < 0 then -n else n);
  }

  lemma {:induction false} DigitRunOfDigits(d: string, rest: string, hex: bool)
    requires AllRadixDigits(d, hex)
    requires rest == [] || !IsRadixDigit(rest[0], hex)
    ensures DigitRun(d + rest, hex) == |d|
  {
    if d != [] {
      assert (d + rest)[1..] == d[1..] + rest;
      DigitRunOfDigits(d[1..], rest, hex);
    } else {
      assert d + rest == rest;
    }
  }

  lemma {:induction false} MagnitudeOfNumeral(m: nat, rest: string)
    requires rest == [] || !IsDecimalDigit(rest[0])
    requires m == 0 ==> rest == [] || (rest[0] != 'x' && rest[0] != 'X')
    ensures ParseMagnitude(NatToString(m) + rest) == Some(m)
  {
    var d := NatToString(m);
    var u := d + rest;
    NatToStringDigits(m);
    assert !(|u| >= 2 && u[0] == '0' && (u[1] == 'x' || u[1] == 'X')) by {
      if |u| >= 2 && u[0] == '0' {
        assert d == "0";
        assert u[1] == rest[0];
      }
    }
    DigitRunOfDigits(d, rest, false);
    assert u[..|d|] == d;
  }

  /** A string that starts with a digit is read from its first character. */
  lemma {:induction false} ParseIntAtDigit(s: string)
    requires |s| > 0 && IsDecimalDigit(s[0])
    ensures ParseMagnitude(s).Some? ==> ParseInt(s) == Some(ParseMagnitude(s).value)
  {
    assert !IsJsWhitespace(s[0]);
  }

  /** A minus sign before a magnitude negates it. */
  lemma {:induction false} ParseIntAtMinus(d: string, rest: string, m: nat)
    requires ParseMagnitude(d + rest) == Some(m)
    ensures ParseInt("-" + d + rest) == Some(-(m as int))
  {
    var s := "-" + d + rest;
    assert s[0] == '-' && !IsJsWhitespace(s[0]);
    assert s[1..] == d + rest;
  }

  /** parseInt reads back the numeral of any integer, whatever follows it, as long
      as what follows does not extend the digit run (nor, after "0", turn the
      numeral into a hexadecimal prefix). So `parseInt("5abc")` is 5. */
  lemma {:induction false} ParseIntLeading(n: int, rest: string)
    requires rest == [] || !IsDecimalDigit(rest[0])
    requires n == 0 ==> rest == [] || (rest[0] != 'x' && rest[0] != 'X')
    ensures ParseInt(IntToString(n) + rest) == Some(n)
  {
    if n < 0 {
      ParseIntNegativeNumeral(n, rest);
    } else {
      ParseIntNumeral(n, rest);
    }
  }

  lemma {:induction false} ParseIntNumeral(n: nat, rest: string)
    requires rest == [] || !IsDecimalDigit(rest[0])
    requires n == 0 ==> rest == [] || (rest[0] != 'x' && rest[0] != 'X')
    ensures ParseInt(IntToString(n) + rest) == Some(n)
  {
    MagnitudeOfNumeral(n, rest);
    ParseIntAtDigit(NatToString(n) + rest);
  }

  lemma {:induction false} ParseIntNegativeNumeral(n: int, rest: string)
    requires n < 0 && (rest == [] || !IsDecimalDigit(rest[0]))
    ensures ParseInt(IntToString(n) + rest) == Some(n)
  {
    MagnitudeOfNumeral(-n, rest);
    ParseIntAtMinus(NatToString(-n), rest, -n);
  }

  /** parseInt of the numeral of `n` is `n`. */
  lemma ParseIntRoundTrip(n: int)
    ensures ParseInt(IntToString(n)) == Some(n)
  {
    ParseIntLeading(n, []);
    assert IntToString(n) + [] == IntToString(n);
  }

  /** A string without a decimal digit parses to NaN: "abc", "undefined", "". */
  lemma {:induction false} NoDigitNoNumber(s: string)
    requires forall i :: 0 <= i < |s| ==> !IsDecimalDigit(s[i])
    ensures ParseInt(s) == None
  {
    if |s| > 0 && IsJsWhitespace(s[0]) {
      NoDigitNoNumber(s[1..]);
    } else if |s| > 1 {
      assert !IsDecimalDigit(s[1..][0]);
    }
  }

  // ---------------------------------------------------------------------------
  // Array.prototype.join(sep) on strings, and splitting on one character
  // ---------------------------------------------------------------------------

  /** `parts.join(sep)`: the separator appears only between parts, so it occurs
      in the result exactly when there are two or more parts or a part holds it. */
  function Join(parts: seq<string>, sep: char): (r: string)
    ensures |parts| == 0 ==> r == ""
    ensures |parts| == 1 ==> r == parts[0]
    ensures |parts| > 0 ==> |parts[0]| <= |r|
  {
    if |parts| == 0 then ""
    else if |parts| == 1 then parts[0]
    else parts[0] + [sep] + Join(parts[1..], sep)
  }

  /** The separator occurs in a join exactly when there are two or more parts
      or a part holds it. This follows from `Join`'s definition: two or more
      parts put a separator right after the first one. */
  lemma JoinHoldsSeparator(parts: seq<string>, sep: char)
    ensures sep in Join(parts, sep) <==> |parts| > 1 || exists i :: 0 <= i < |parts| && sep in parts[i]
  {
  }

  /** A character that is neither the separator nor in any part is not in the join. */
  lemma {:induction false} JoinAvoids(parts: seq<string>, sep: char, c: char)
    requires c != sep
    requires forall i :: 0 <= i < |parts| ==> c !in parts[i]
    ensures c !in Join(parts, sep)
  {
    if |parts| > 1 {
      JoinAvoids(parts[1..], sep, c);
    }
  }

  /** Cutting a string at every occurrence of `sep`: one more piece than there
      are separators, and no piece holds the separator. */
  function Split(s: string, sep: char): (parts: seq<string>)
    ensures |parts| >= 1
    ensures forall i :: 0 <= i < |parts| ==> sep !in parts[i]
  {
    if s == [] then [""]
    else
      var rest := Split(s[1..], sep);
      if s[0] == sep then [""] + rest
      else [[s[0]] + rest[0]] + rest[1..]
  }

  lemma {:induction false} SplitNoSeparator(a: string, sep: char)
    requires sep !in a
    ensures Split(a, sep) == [a]
  {
    if a != [] {
      SplitNoSeparator(a[1..], sep);
      assert [a[0]] + a[1..] == a;
    }
  }

  lemma {:induction false} SplitAfterPiece(a: string, sep: char, b: string)
    requires sep !in a
    ensures Split(a + [sep] + b, sep) == [a] + Split(b, sep)
  {
    if a == [] {
      assert a + [sep] + b == [sep] + b;
      assert ([sep] + b)[1..] == b;
    } else {
      assert (a + [sep] + b)[1..] == a[1..] + [sep] + b;
      SplitAfterPiece(a[1..], sep, b);
      assert [a[0]] + a[1..] == a;
    }
  }

  /** Splitting undoes joining when no part holds the separator. */
  lemma {:induction false} SplitJoin(parts: seq<string>, sep: char)
    requires |parts| >= 1
    requires forall i :: 0 <= i < |parts| ==> sep !in parts[i]
    ensures Split(Join(parts, sep), sep) == parts
  {
    if |parts| == 1 {
      SplitNoSeparator(parts[0], sep);
    } else {
      SplitJoin(parts[1..], sep);
      SplitAfterPiece(parts[0], sep, Join(parts[1..], sep));
      assert [parts[0]] + parts[1..] == parts;
    }
  }

  /** Joining undoes splitting, for every string. */
  lemma {:induction false} JoinSplit(s: string, sep: char)
    ensures Join(Split(s, sep), sep) == s
  {
    if s != [] {
      JoinSplit(s[1..], sep);
      var rest := Split(s[1..], sep);
      if s[0] == sep {
        assert ([""] + rest)[1..] == rest;
      } else {
        var parts := [[s[0]] + rest[0]] + rest[1..];
        if |rest| == 1 {
          assert parts == [[s[0]] + rest[0]];
        } else {
          assert parts[1..] == rest[1..];
          assert Join(rest, sep) == rest[0] + [sep] + Join(rest[1..], sep);
        }
      }
    }
  }
}

=== FILE: jsvalues.dfy ===
/** JSON-shaped JavaScript values that the adapter copies without looking inside
    (meta, winNotification, cpm, the video configuration's own keys), and the
    language's truthiness test on them. */
module JsValues {

  /** A JSON value. Numbers are mathematical reals: NaN and the infinities are not
      represented. Object key order is not represented. */
  datatype Json =
    | JNull
    | JBool(b: bool)
    | JNum(n: real)
    | JStr(s: string)
    | JArr(items: seq<Json>)
    | JObj(props: map<string, Json>)

  /** `!!v` in JavaScript: null, false, 0 and the empty string are falsy; every
      array and every object, even an empty one, is truthy. */
  predicate Truthy(v: Json) {
    match v
    case JNull => false
    case JBool(b) => b
    case JNum(n) => n != 0.0
    case JStr(s) => s != ""
    case JArr(_) => true
    case JObj(_) => true
  }

  /** `Array.isArray(v)` */
  predicate IsArray(v: Json) {
    v.JArr?
  }
}

=== FILE: syncs.dfy ===
/** getUserSyncs: the user-sync pixels and iframes the exchange asks for, with
    the publisher's GDPR consent appended to each address. */
module UserSyncs {
  import opened Wrappers
  import opened AdapterTypes

  // ---------------------------------------------------------------------------
  // The consent query
  // ---------------------------------------------------------------------------

  /** The text of the consent string in the template: "undefined" when it is
      missing. */
  function ConsentText(c: GdprConsent): string {
    if c.consentString.Some? then c.consentString.value else "undefined"
  }

  /** `gdpr=<Number(gdprApplies)>&` when `gdprApplies` is a boolean, else nothing. */
  function GdprFlag(c: GdprConsent): string {
    match c.gdprApplies
    case Some(applies) => "gdpr=" + (if applies then "1" else "0") + "&"
    case None => ""
  }

  /** The consent query string; none without consent data. */
  function GdprParams(consent: Option<GdprConsent>): (p: Option<string>)
    ensures p.None? <==> consent.None?
  {
    match consent
    case None => None
    case Some(c) => Some(GdprFlag(c) + "gdpr_consent=" + ConsentText(c))
  }

  /** The consent query ends with `gdpr_consent=<s>`; it is nothing more when
      `gdprApplies` is not a boolean, and otherwise it is `gdpr=<flag>&`
      followed by that, the flag '1' exactly when GDPR applies. */
  lemma GdprParamsShape(c: GdprConsent)
    ensures var p := GdprParams(Some(c)).value; var q := "gdpr_consent=" + ConsentText(c);
      && |q| <= |p| && p[|p| - |q|..] == q
      && (c.gdprApplies.None? ==> p == q)
      && (c.gdprApplies.Some? ==>
        && |p| == |q| + 7 && p[..5] == "gdpr=" && p[6] == '&'
        && p[5] == (if c.gdprApplies.value then '1' else '0'))
  {
    var flag := GdprFlag(c);
    var q := "gdpr_consent=" + ConsentText(c);
    assert GdprParams(Some(c)).value == flag + q;
    if c.gdprApplies.Some? {
      assert |flag| == 7 && flag[..5] == "gdpr=" && flag[6] == '&';
      assert flag[5] == (if c.gdprApplies.value then '1' else '0');
    } else {
      assert flag == "";
    }
  }

  /** `appendGdprParams`: the address unchanged without consent, else the
      address, '&' when it already has a '?' and '?' otherwise, and the query. */
  function AppendGdprParams(url: string, params: Option<string>): (r: string)
    ensures params.None? ==> r == url
    ensures params.Some? ==> |r| == |url| + 1 + |params.value|
  {
    if params.None? then url
    else url + [if '?' in url then '&' else '?'] + params.value
  }

  /** With consent, the address is kept as a prefix, followed by one separator
      and the query; the result always has a query part, and when neither the
      address nor the query had a '?', the separator is the only '?'. */
  lemma AppendGdprParamsShape(url: string, params: string)
    ensures var r := AppendGdprParams(url, Some(params));
      && r[..|url|] == url && r[|url| + 1..] == params
      && r[|url|] == (if '?' in url then '&' else '?')
      && '?' in r
      && ('?' !in url && '?' !in params ==> forall i :: 0 <= i < |r| && r[i] == '?' ==> i == |url|)
  {
    var r := AppendGdprParams(url, Some(params));
    assert r == url + [if '?' in url then '&' else '?'] + params;
    if '?' in url {
      var k :| 0 <= k < |url| && url[k] == '?';
      assert r[k] == '?';
    } else {
      assert r[|url|] == '?';
      if '?' !in params {
        forall i | 0 <= i < |r| && i != |url| ensures r[i] != '?' {
          if i < |url| {
            assert r[i] == url[i];
          } else {
            assert r[i] == params[i - |url| - 1];
          }
        }
      }
    }
  }

  // ---------------------------------------------------------------------------
  // The syncs of one ad, one body, a list of responses
  // ---------------------------------------------------------------------------

  /** The filter of one pass: a `type` and a `link` are both defined, and the
      type names the pass's kind. */
  predicate Matches(spec: SyncSpec, kind: SyncType) {
    spec.kind.Some? && spec.link.Some? && spec.kind.value == kind.Name()
  }

  /** One pass over an ad's `syncs`: a sync of the pass's kind for each
      matching element, in array order. */
  function PassSyncs(items: seq<SyncSpec>, kind: SyncType, params: Option<string>): (r: seq<UserSync>)
    ensures |r| <= |items|
  {
    if |items| == 0 then []
    else
      var last := items[|items| - 1];
      PassSyncs(items[..|items| - 1], kind, params)
        + (if Matches(last, kind) then [UserSync(kind, AppendGdprParams(last.link.value, params))] else [])
  }

  /** The `syncs` array of a value of a response body, when it is an object
      whose `syncs` is a non-empty array. */
  function SyncItems(value: BodyValue): Option<seq<SyncSpec>> {
    if value.Ad? && value.ad.syncs.Some? && value.ad.syncs.value.SyncArray? && |value.ad.syncs.value.items| > 0
    then Some(value.ad.syncs.value.items)
    else None
  }

  /** The syncs of one value of a response body: nothing unless it has a
      non-empty `syncs` array; then the iframe pass, if iframes are enabled,
      followed by the image pass, if pixels are. */
  function AdSyncs(value: BodyValue, options: SyncOptions, params: Option<string>): seq<UserSync> {
    match SyncItems(value)
    case None => []
    case Some(items) =>
      (if options.iframeEnabled then PassSyncs(items, Iframe, params) else [])
        + (if options.pixelEnabled then PassSyncs(items, Image, params) else [])
  }

  /** Extending the array by one element extends the pass by that element's sync, if any. */
  lemma PassSyncsStep(items: seq<SyncSpec>, k: nat, kind: SyncType, params: Option<string>)
    requires k < |items|
    ensures PassSyncs(items[..k + 1], kind, params) == PassSyncs(items[..k], kind, params)
      + (if Matches(items[k], kind) then [UserSync(kind, AppendGdprParams(items[k].link.value, params))] else [])
  {
    assert items[..k + 1][..k] == items[..k];
  }

  /** The syncs of a response body, key by key in enumeration order. */
  function BodySyncs(body: ResponseBody, options: SyncOptions, params: Option<string>): seq<UserSync> {
    if |body| == 0 then []
    else BodySyncs(body[..|body| - 1], options, params) + AdSyncs(body[|body| - 1].1, options, params)
  }

  /** Extending the body by one key extends its syncs by that key's, also
      after syncs collected earlier (`pre`). */
  lemma BodySyncsStep(body: ResponseBody, k: nat, options: SyncOptions, params: Option<string>, pre: seq<UserSync>)
    requires k < |body|
    ensures BodySyncs(body[..k + 1], options, params) == BodySyncs(body[..k], options, params) + AdSyncs(body[k].1, options, params)
    ensures pre + BodySyncs(body[..k + 1], options, params) == (pre + BodySyncs(body[..k], options, params)) + AdSyncs(body[k].1, options, params)
  {
    assert body[..k + 1][..k] == body[..k];
  }

  /** The syncs of a list of responses, in order; a response without a body
      contributes none. */
  function ResponsesSyncs(responses: seq<ServerResponse>, options: SyncOptions, params: Option<string>): seq<UserSync> {
    if |responses| == 0 then []
    else
      var last := responses[|responses| - 1];
      ResponsesSyncs(responses[..|responses| - 1], options, params)
        + (if last.body.Some? then BodySyncs(last.body.value, options, params) else [])
  }

  lemma ResponsesSyncsStep(responses: seq<ServerResponse>, i: nat, options: SyncOptions, params: Option<string>)
    requires i < |responses|
    ensures ResponsesSyncs(responses[..i + 1], options, params) == ResponsesSyncs(responses[..i], options, params)
      + (if responses[i].body.Some? then BodySyncs(responses[i].body.value, options, params) else [])
  {
    assert responses[..i + 1][..i] == responses[..i];
  }

  /** The specification of getUserSyncs: nothing when neither kind of sync is
      enabled, else every response's syncs with the consent query appended. */
  function UserSyncsOf(options: SyncOptions, responses: seq<ServerResponse>, consent: Option<GdprConsent>): seq<UserSync> {
    if !options.iframeEnabled && !options.pixelEnabled then []
    else ResponsesSyncs(responses, options, GdprParams(consent))
  }

  // ---------------------------------------------------------------------------
  // What the syncs are
  // ---------------------------------------------------------------------------

  /** A pass emits only syncs of its kind, each the link of a matching element
      with the consent query appended. */
  lemma {:induction false} PassSyncsSound(items: seq<SyncSpec>, kind: SyncType, params: Option<string>)
    ensures forall s :: s in PassSyncs(items, kind, params) ==>
      s.kind == kind && exists i :: 0 <= i < |items| && Matches(items[i], kind) && s.url == AppendGdprParams(items[i].link.value, params)
  {
    if |items| > 0 {
      var front := items[..|items| - 1];
      PassSyncsSound(front, kind, params);
      forall s | s in PassSyncs(items, kind, params)
        ensures s.kind == kind && exists i :: 0 <= i < |items| && Matches(items[i], kind) && s.url == AppendGdprParams(items[i].link.value, params)
      {
        if s in PassSyncs(front, kind, params) {
          var i :| 0 <= i < |front| && Matches(front[i], kind) && s.url == AppendGdprParams(front[i].link.value, params);
          assert front[i] == items[i];
        } else {
          assert Matches(items[|items| - 1], kind);
        }
      }
    }
  }

  /** A pass emits a sync for every matching element. */
  lemma {:induction false} PassSyncsComplete(items: seq<SyncSpec>, kind: SyncType, params: Option<string>, i: nat)
    requires i < |items| && Matches(items[i], kind)
    ensures UserSync(kind, AppendGdprParams(items[i].link.value, params)) in PassSyncs(items, kind, params)
  {
    if i < |items| - 1 {
      var front := items[..|items| - 1];
      assert front[i] == items[i];
      PassSyncsComplete(front, kind, params, i);
    }
  }

  /** Every sync of a pass has the pass's kind. */
  lemma {:induction false} PassSyncsKind(items: seq<SyncSpec>, kind: SyncType, params: Option<string>)
    ensures forall k :: 0 <= k < |PassSyncs(items, kind, params)| ==> PassSyncs(items, kind, params)[k].kind == kind
  {
    if |items| > 0 {
      PassSyncsKind(items[..|items| - 1], kind, params);
    }
  }

  /** For one ad, every iframe sync comes before every image sync, and only
      enabled kinds appear. */
  lemma AdSyncsOrdered(value: BodyValue, options: SyncOptions, params: Option<string>)
    ensures var r := AdSyncs(value, options, params);
      && (forall i, j :: 0 <= i < j < |r| && r[i].kind == Image ==> r[j].kind == Image)
      && (forall k :: 0 <= k < |r| ==> KindEnabled(r[k].kind, options))
  {
    if SyncItems(value).Some? {
      var items := SyncItems(value).value;
      PassSyncsKind(items, Iframe, params);
      PassSyncsKind(items, Image, params);
    }
  }

  /** The kind is one the publisher enabled. */
  predicate KindEnabled(kind: SyncType, options: SyncOptions) {
    match kind
    case Iframe => options.iframeEnabled
    case Image => options.pixelEnabled
  }

  /** Every sync of a body is of an enabled kind. */
  lemma {:induction false} BodySyncsEnabled(body: ResponseBody, options: SyncOptions, params: Option<string>)
    ensures forall k :: 0 <= k < |BodySyncs(body, options, params)| ==> KindEnabled(BodySyncs(body, options, params)[k].kind, options)
  {
    if |body| > 0 {
      BodySyncsEnabled(body[..|body| - 1], options, params);
      AdSyncsOrdered(body[|body| - 1].1, options, params);
    }
  }

  /** Every sync of a list of responses is of an enabled kind. */
  lemma {:induction false} ResponsesSyncsEnabled(responses: seq<ServerResponse>, options: SyncOptions, params: Option<string>)
    ensures forall k :: 0 <= k < |ResponsesSyncs(responses, options, params)| ==>
      KindEnabled(ResponsesSyncs(responses, options, params)[k].kind, options)
  {
    if |responses| > 0 {
      ResponsesSyncsEnabled(responses[..|responses| - 1], options, params);
      var last := responses[|responses| - 1];
      if last.body.Some? {
        BodySyncsEnabled(last.body.value, options, params);
      }
    }
  }

  /** getUserSyncs only returns kinds of sync the publisher enabled. */
  lemma UserSyncsEnabled(options: SyncOptions, responses: seq<ServerResponse>, consent: Option<GdprConsent>)
    ensures forall k :: 0 <= k < |UserSyncsOf(options, responses, consent)| ==>
      KindEnabled(UserSyncsOf(options, responses, consent)[k].kind, options)
  {
    ResponsesSyncsEnabled(responses, options, GdprParams(consent));
  }

  /** The early return for a publisher who enabled neither kind changes
      nothing: both passes are switched off anyway. */
  lemma {:induction false} NothingEnabledNothingCollected(responses: seq<ServerResponse>, options: SyncOptions, params: Option<string>)
    requires !options.iframeEnabled && !options.pixelEnabled
    ensures ResponsesSyncs(responses, options, params) == []
  {
    if |responses| > 0 {
      NothingEnabledNothingCollected(responses[..|responses| - 1], options, params);
      var last := responses[|responses| - 1];
      if last.body.Some? {
        BodyNothingEnabled(last.body.value, options, params);
      }
    }
  }

  lemma {:induction false} BodyNothingEnabled(body: ResponseBody, options: SyncOptions, params: Option<string>)
    requires !options.iframeEnabled && !options.pixelEnabled
    ensures BodySyncs(body, options, params) == []
  {
    if |body| > 0 {
      BodyNothingEnabled(body[..|body| - 1], options, params);
    }
  }

  /** A response whose only ad asks for one image sync, to a link without '?',
      gives a publisher who allows pixels exactly that sync, with the consent
      query after a '?'. */
  lemma OneImageSync(link: string, key: string, responses: seq<ServerResponse>, consent: Option<GdprConsent>)
    requires '?' !in link && consent.Some?
    requires responses == [ServerResponse(Some([(key, Ad(ServerAd(None, None, None, None, None, None, None, None, None, None,
      Some(SyncArray([SyncSpec(Some("image"), Some(link))])))))]))]
    ensures UserSyncsOf(SyncOptions(false, true), responses, consent)
      == [UserSync(Image, link + "?" + GdprParams(consent).value)]
  {
    var params := GdprParams(consent);
    var items := [SyncSpec(Some("image"), Some(link))];
    var sync := UserSync(Image, link + "?" + params.value);
    assert Matches(items[0], Image);
    PassSyncsStep(items, 0, Image, params);
    assert items[..1] == items && items[..0] == [];
    assert PassSyncs(items, Image, params) == [sync];
    var body := responses[0].body.value;
    BodySyncsStep(body, 0, SyncOptions(false, true), params, []);
    assert body[..1] == body && body[..0] == [];
    ResponsesSyncsStep(responses, 0, SyncOptions(false, true), params);
    assert responses[..1] == responses && responses[..0] == [];
  }

  // ---------------------------------------------------------------------------
  // getUserSyncs
  // ---------------------------------------------------------------------------

  /** One `filter(...).forEach(push)` pass over an ad's `syncs`. */
  method PushPass(syncs: seq<UserSync>, items: seq<SyncSpec>, kind: SyncType, params: Option<string>)
    returns (syncs': seq<UserSync>)
    ensures syncs' == syncs + PassSyncs(items, kind, params)
  {
    syncs' := syncs;
    for k := 0 to |items|
      invariant syncs' == syncs + PassSyncs(items[..k], kind, params)
    {
      PassSyncsStep(items, k, kind, params);
      var spec := items[k];
      if spec.kind.Some? && spec.link.Some? && spec.kind.value == kind.Name() {
        syncs' := syncs' + [UserSync(kind, AppendGdprParams(spec.link.value, params))];
      }
    }
    assert items[..|items|] == items;
  }

  /** The callback of `Object.keys(resp.body).map(...)` for one key. */
  method PushAdSyncs(syncs: seq<UserSync>, value: BodyValue, options: SyncOptions, params: Option<string>)
    returns (syncs': seq<UserSync>)
    ensures syncs' == syncs + AdSyncs(value, options, params)
  {
    syncs' := syncs;
    if value.Ad? && value.ad.syncs.Some? && value.ad.syncs.value.SyncArray? && |value.ad.syncs.value.items| > 0 {
      var items := value.ad.syncs.value.items;
      if options.iframeEnabled {
        syncs' := PushPass(syncs', items, Iframe, params);
      }
      if options.pixelEnabled {
        syncs' := PushPass(syncs', items, Image, params);
      }
    }
  }

  /** The loop over the keys of one response body. */
  method PushBodySyncs(syncs: seq<UserSync>, body: ResponseBody, options: SyncOptions, params: Option<string>)
    returns (syncs': seq<UserSync>)
    ensures syncs' == syncs + BodySyncs(body, options, params)
  {
    syncs' := syncs;
    for k := 0 to |body|
      invariant syncs' == syncs + BodySyncs(body[..k], options, params)
    {
      BodySyncsStep(body, k, options, params, syncs);
      syncs' := PushAdSyncs(syncs', body[k].1, options, params);
    }
    assert body[..|body|] == body;
  }

  /** `getUserSyncs`: returns early when neither kind of sync is enabled,
      builds the consent query, then collects the syncs response by response. */
  method GetUserSyncs(options: SyncOptions, responses: seq<ServerResponse>, consent: Option<GdprConsent>)
    returns (syncs: seq<UserSync>)
    ensures syncs == UserSyncsOf(options, responses, consent)
  {
    syncs := [];
    if !options.iframeEnabled && !options.pixelEnabled {
      return;
    }
    var params: Option<string> := None;
    if consent.Some? {
      var c := consent.value;
      if c.gdprApplies.Some? {
        params := Some("gdpr=" + (if c.gdprApplies.value then "1" else "0") + "&" + "gdpr_consent=" + ConsentText(c));
      } else {
        params := Some("gdpr_consent=" + ConsentText(c));
        assert GdprFlag(c) + "gdpr_consent=" == "gdpr_consent=";
      }
    }
    assert params == GdprParams(consent);
    for i := 0 to |responses|
      invariant syncs == ResponsesSyncs(responses[..i], options, params)
    {
      ResponsesSyncsStep(responses, i, options, params);
      if responses[i].body.Some? {
        syncs := PushBodySyncs(syncs, responses[i].body.value, options, params);
      }
    }
    assert responses[..|responses|] == responses;
  }
}

=== FILE: types.dfy ===
/** The entities the mediaimpact bidder adapter reads and produces, and its
    fixed constants. JavaScript objects become datatypes whose absent keys are
    `None`; the one input object the adapter writes to, the ad unit's video
    configuration, is a class. */
module AdapterTypes {
  import opened Wrappers
  import opened JsValues

  const ENDPOINT_PROTOCOL := "https"
  const ENDPOINT_DOMAIN := "bidder.smartytouch.co"
  const ENDPOINT_PATH := "/hb/bid"
  /** The framework's name for the video media type. */
  const VIDEO := "video"
  /** Every bid the adapter returns lives this many seconds. */
  const BID_TTL := 60

  /** A creative size as the framework writes it, normally `[width, height]`. */
  type Size = seq<int>

  /** `mediaTypes.video` of an ad unit: a plain object, shared with the caller,
      that request building extends with a `sizes` key. */
  class VideoConfig {
    var fields: map<string, Json>
  }

  /** `params` of a bid request. The ids are kept as the caller wrote them (the
      string form of the value); `sizes` overrides the request's sizes. */
  datatype BidParams = BidParams(
    unitId: Option<string>,
    partnerId: Option<string>,
    sizes: Option<seq<Size>>)

  /** A bid request handed over by the framework. */
  datatype BidRequest = BidRequest(
    adUnitCode: string,
    bidId: string,
    sizes: seq<Size>,
    params: BidParams,
    video: Option<VideoConfig>)

  /** The frame a function needs to look into a request's video configuration. */
  function VideoFrame(r: BidRequest): set<object> {
    if r.video.Some? then {r.video.value} else {}
  }

  /** One entry of the outbound request body. While the request is being built
      `V` is the caller's VideoConfig object itself; once serialised it is a
      snapshot of that object's keys. */
  datatype OutboundBid<V> = OutboundBid(
    adUnitCode: string,
    sizes: seq<Size>,
    bidId: string,
    referer: string,
    video: Option<V>,
    unitId: Option<int>,
    partnerId: Option<int>)

  /** The query parameters of the bid URL; `partner` is `None` when the key
      has been deleted. */
  datatype BeaconParams = BeaconParams(
    tag: string,
    partner: Option<string>,
    sizes: string,
    referer: string)

  /** What buildRequests returns: the HTTP method, the URL's parts and the body,
      which is the list of outbound entries (their JSON text is not modelled). */
  datatype ServerRequest = ServerRequest(
    httpMethod: string,
    protocol: string,
    hostname: string,
    pathname: string,
    search: BeaconParams,
    data: seq<OutboundBid<map<string, Json>>>)

  /** One element of an ad's `syncs` array. A `type` that is not a string
      behaves like any string other than "iframe" and "image". */
  datatype SyncSpec = SyncSpec(kind: Option<string>, link: Option<string>)

  /** The `syncs` value of an ad: an array, or something else. */
  datatype SyncsValue = SyncArray(items: seq<SyncSpec>) | NotAnArray(value: Json)

  /** The exchange's answer for one ad unit. Everything but `mediaType`, `meta`
      and `syncs` is copied without being looked at. */
  datatype ServerAd = ServerAd(
    ad: Option<Json>,
    cpm: Option<Json>,
    width: Option<Json>,
    height: Option<Json>,
    creativeId: Option<Json>,
    netRevenue: Option<Json>,
    currency: Option<Json>,
    winNotification: Option<Json>,
    mediaType: Option<Json>,
    meta: Option<Json>,
    syncs: Option<SyncsValue>)

  /** A value of a response body: an ad object, or a falsy value (null, false,
      0, ""). A truthy value that is not an object behaves like an ad object
      without any key. */
  datatype BodyValue = Falsy | Ad(ad: ServerAd)

  /** A response body: its keys (ad unit codes) in enumeration order. */
  type ResponseBody = seq<(string, BodyValue)>

  /** A server response; `body` is `None` when it is undefined. */
  datatype ServerResponse = ServerResponse(body: Option<ResponseBody>)

  /** The bid handed back to the framework. */
  datatype NormalizedBid = NormalizedBid(
    requestId: string,
    ad: Option<Json>,
    cpm: Option<Json>,
    width: Option<Json>,
    height: Option<Json>,
    ttl: int,
    creativeId: Option<Json>,
    netRevenue: Option<Json>,
    currency: Option<Json>,
    winNotification: Option<Json>,
    meta: Json,
    vastXml: Option<Json>,
    mediaType: Option<string>)

  datatype SyncType = Iframe | Image {
    /** The `type` string the exchange and the framework use. */
    function Name(): string {
      match this
      case Iframe => "iframe"
      case Image => "image"
    }
  }

  datatype UserSync = UserSync(kind: SyncType, url: string)

  /** Which kinds of user sync the publisher allows. */
  datatype SyncOptions = SyncOptions(iframeEnabled: bool, pixelEnabled: bool)

  /** The GDPR consent data; `gdprApplies` is `None` when it is not a boolean. */
  datatype GdprConsent = GdprConsent(gdprApplies: Option<bool>, consentString: Option<string>)
}

=== FILE: validation.dfy ===
/** isBidRequestValid and _validateVideo: which bid requests the adapter accepts. */
module RequestValidation {
  import opened Wrappers
  import opened JsValues
  import opened JsText
  import opened AdapterTypes

  /** `parseInt(raw)` when it is truthy, that is a number other than NaN and 0. */
  function ParsedId(raw: Option<string>): (r: Option<int>)
    ensures r.Some? <==> raw.Some? && ParseInt(raw.value).Some? && ParseInt(raw.value).value != 0
    ensures r.Some? ==> r == ParseInt(raw.value)
  {
    if raw.Some? && ParseInt(raw.value).Some? && ParseInt(raw.value).value != 0
    then ParseInt(raw.value) else None
  }

  /** `_validateVideo`: a request without a video configuration passes; one with
      it needs an array `playerSize` and a truthy `context`. */
  predicate ValidateVideo(r: BidRequest)
    reads VideoFrame(r)
  {
    match r.video
    case None => true
    case Some(v) =>
      && "playerSize" in v.fields && IsArray(v.fields["playerSize"])
      && "context" in v.fields && Truthy(v.fields["context"])
  }

  /** `isBidRequestValid`: one of the two ids parses to a non-zero integer, and
      the video configuration, if any, is acceptable. */
  predicate IsBidRequestValid(r: BidRequest)
    reads VideoFrame(r)
  {
    (ParsedId(r.params.unitId).Some? || ParsedId(r.params.partnerId).Some?) && ValidateVideo(r)
  }

  /** Acceptance needs a non-zero leading integer in one of the ids, and the
      id is a number whatever text follows it: "12abc" counts as 12, and
      negative ids are accepted. A video configuration, if there is one, needs
      an array `playerSize` and a truthy `context`. */
  lemma ValidWithLeadingInteger(r: BidRequest, n: int, rest: string)
    requires n != 0 && (rest == [] || !IsDecimalDigit(rest[0]))
    requires r.params.unitId == Some(IntToString(n) + rest) || r.params.partnerId == Some(IntToString(n) + rest)
    requires r.video.Some? ==>
      && "playerSize" in r.video.value.fields && r.video.value.fields["playerSize"].JArr?
      && "context" in r.video.value.fields && Truthy(r.video.value.fields["context"])
    ensures IsBidRequestValid(r)
  {
    ParseIntLeading(n, rest);
  }

  /** Ids that are absent, or hold no decimal digit at all ("abc"), never make a
      request valid. */
  lemma NoDigitIdsRejected(r: BidRequest)
    requires r.params.unitId.Some? ==> forall i :: 0 <= i < |r.params.unitId.value| ==> !IsDecimalDigit(r.params.unitId.value[i])
    requires r.params.partnerId.Some? ==> forall i :: 0 <= i < |r.params.partnerId.value| ==> !IsDecimalDigit(r.params.partnerId.value[i])
    ensures !IsBidRequestValid(r)
  {
    if r.params.unitId.Some? { NoDigitNoNumber(r.params.unitId.value); }
    if r.params.partnerId.Some? { NoDigitNoNumber(r.params.partnerId.value); }
  }

  /** A zero id is as good as none: `unitId` "0" without a `partnerId` fails. */
  lemma ZeroUnitIdRejected(r: BidRequest)
    requires r.params.unitId == Some("0") && r.params.partnerId.None?
    ensures !IsBidRequestValid(r)
  {
    ParseIntRoundTrip(0);
  }

  /** Without a video configuration the ids alone decide. With one, the request
      is rejected whatever its ids unless `playerSize` is an array and `context`
      is neither null, false, 0 nor "". */
  lemma VideoRule(r: BidRequest)
    ensures r.video.None? ==>
      (IsBidRequestValid(r) <==> ParsedId(r.params.unitId).Some? || ParsedId(r.params.partnerId).Some?)
    ensures r.video.Some? ==>
      var f := r.video.value.fields;
      !("playerSize" in f && f["playerSize"].JArr?) ==> !IsBidRequestValid(r)
    ensures r.video.Some? ==>
      var f := r.video.value.fields;
      var c := if "context" in f then f["context"] else JNull;
      (c == JNull || c == JBool(false) || c == JNum(0.0) || c == JStr("")) ==> !IsBidRequestValid(r)
    ensures r.video.Some? ==>
      var f := r.video.value.fields;
      (IsBidRequestValid(r) <==>
        (ParsedId(r.params.unitId).Some? || ParsedId(r.params.partnerId).Some?)
        && "playerSize" in f && f["playerSize"].JArr?
        && "context" in f && Truthy(f["context"]))
  {
  }
}

=== FILE: wrappers.dfy ===
/** The optional value: `None` stands for JavaScript's `undefined` (an absent key,
    or `NaN` where a number is expected). */
module Wrappers {

  datatype Option<+T> = None | Some(value: T) {

    /** The value, or `default` when there is none. */
    function GetOr(default: T): T {
      match this
      case Some(v) => v
      case None => default
    }
  }
}
